=== FILE: README.md ===
# School dashboard record store, in Dafny

`script.js` drives a browser dashboard for a school. It keeps students, staff,
attendance records, fee records and an activity log in memory. Each button
runs a handler that changes one of those lists; the add handlers check the
form first, the update handler does not. This project
models those handlers and the JavaScript conversions they depend on. Each
command is a pure function from a `Store` value, the form inputs and the
identifier and clock readings it needs, to a `Reply`: the new store plus
`Done` or `Rejected(reason)`.

Modules, one per part of the program:

- `JsValues` covers `parseInt` and the global `parseFloat`, as section 19.2.5
  and section 19.2.4 of ECMA-262 define them. It also covers the rounding of a
  decimal literal to zero or Infinity at the limits of a double, and the
  decimal text of a natural number.
- `Records` holds the record datatypes and the `Store`.
- `ActivityLog` covers `addActivity`: newest first, at most 50 entries.
- `Students` covers the next-roll suggestion of `showStudentForm`, and
  `saveStudent`, `updateStudent` and `deleteStudent`.
- `StaffMembers` covers `saveStaff`.
- `Fees` covers `saveFee`.
- `Attendance` covers these parts:
  - `markAttendance`;
  - `updateAttendanceStatus` and the filtered view of the attendance table
    that supplies its index;
  - `updateAttendanceSummary`;
  - the attendance rate of `updateDashboardStats`.
- `TimeAgo` covers `formatTimeAgo`.

The fee check `!fee.amount` refuses only NaN and zero, so a negative amount is
collected; `Fees.NegativeAmountIsCollected` states it.

## Model

| member | source | states |
|---|---|---|
| ActivityLog.AddActivity | script.js:604-620 | The new entry is at position 0 and the earlier entries follow it in their old order. The log grows by one until it holds 50 entries and then stays at 50. |
| ActivityLog.ReplayKeepsNewestFirst | script.js:613-616 | After any series of additions from a log of at most 50 entries, the log is the first 50 of: the added entries, newest first, then the log as it was before. |
| ActivityLog.ReplayBoundedNewestFirst | script.js:613-616 | After any series of additions, the log holds at most 50 entries and the last entry added is first. |
| Students.NextRoll | script.js:165-166 | The suggestion is 1001 for an empty list. Otherwise it is greater than every parsed roll and exactly one more than some student's parsed roll. |
| Students.RollValueOfNumber | script.js:166 | A roll written as the decimal digits of n counts as n. |
| Students.RollValueWithoutDigits | script.js:166 | A roll with no decimal digit in it counts as 0. |
| Students.SecondStudentGetsNextRoll | script.js:165-194 | Once the first student is saved into an empty store with roll 1001, the form suggests 1002. |
| Students.SaveStudent | script.js:170-199 | The form is accepted exactly when name, roll and class are all non-empty. A refusal changes nothing. An accepted form adds one active student at the end with the form's seven fields, the given id and the given time, and logs it. No other list changes. |
| Students.SaveStudentKeepsComplete | script.js:185-190 | Saving never adds a student without a name, roll or class. |
| Students.UpdateStudent | script.js:266-282 | Position index gets the seven form fields and keeps its id, status and dateAdded. Every other position is unchanged and nothing is validated. At the index one past the end, the record is appended and has no id, status or dateAdded. |
| Students.UpdatePastEndAppends | script.js:266-278 | An update at the index one past the end keeps the earlier students. It appends a record that lacks a required field exactly when the form lacks one. |
| Students.UpdateWithLoadedFormRestores | script.js:247-278 | Saving the form that editStudent loaded, without changes, leaves the student list as it was. |
| Students.AddFormAfterEditOverwrites | script.js:261-278 | With the save button still bound to updateStudent(index), the add form is always accepted, adds no student, and replaces the student at index, who keeps the old id; the new record lacks a required field exactly when the form does. saveStudent on the same form adds one student exactly when the form has name, roll and class. |
| Students.DeleteStudent | script.js:235-245 | An index past the end changes nothing. A declined confirmation changes nothing. A confirmed delete removes the student at index, keeps the others in order, leaves that student's attendance and fee records in place, and logs the delete. |
| Students.DeleteRemovesExactlyOne | script.js:238 | A confirmed delete leaves the multiset of students minus exactly one occurrence of the chosen student. |
| Students.DeleteUndoesSave | script.js:170-245 | Deleting, with confirmation, the student just saved gives back the earlier student list. |
| StaffMembers.SaveStaff | script.js:292-318 | The form is accepted exactly when name and designation are non-empty. A refusal changes nothing. An accepted form adds one active staff member at the end with the form's fields and logs it. |
| StaffMembers.SaveStaffKeepsComplete | script.js:305-310 | Saving never adds a staff member without a name or designation. |
| Fees.FindStudent | script.js:487 | The result is the first student whose id equals the given one, or None when no student has that id. |
| Fees.SaveFee | script.js:482-507 | The form is accepted exactly when it has a student, a fee type, and an amount whose parseFloat value is neither NaN nor zero. A refusal changes nothing. An accepted form adds one paid record with the parsed amount and the student's name, and logs it. The name is "Unknown" when no student has the id or the student's name is empty. No other list changes. |
| Fees.SaveFeeKeepsComplete | script.js:498-503 | Collecting never adds a fee record without a student, a fee type or a usable amount. |
| Fees.NegativeAmountIsCollected | script.js:489-503 | An amount such as "-500" is collected, with the negative value. |
| Fees.EmptyOrZeroAmountIsRefused | script.js:489-501 | An empty amount, or "0", is refused and changes nothing. |
| Fees.TinyAmountIsRefused | script.js:489-501 | An amount "1e-k" with 3k at least 1075 (k at least 359), such as "1e-400", parses to zero and is refused. |
| Fees.HugeAmountIsInfinite | script.js:489-503 | An amount "1ek" with 3k at least 1024 (k at least 342), such as "1e400", is collected as Infinity. |
| Fees.UnknownStudentFeeIsCollected | script.js:487 | A fee for an id that no student has is still collected, under the name "Unknown". |
| JsValues.ToDouble | script.js:489 | A decimal value becomes zero exactly when its magnitude is at most 2^-1075. It becomes Infinity, with the value's sign, exactly when its magnitude is at least 2^1024 - 2^970. It is never NaN. |
| JsValues.ParseIntOfNatToString | script.js:166 | parseInt reads the decimal text of n back as n when no digit follows it, and no "x" follows a lone 0. |
| JsValues.ParseIntWithoutDigits | script.js:166 | parseInt gives NaN for a text with no decimal digit. |
| JsValues.ParseFloatOfNatToString | script.js:489 | parseFloat reads the decimal text of n back as n, below the overflow threshold. |
| JsValues.ParseFloatOfNegatedNatToString | script.js:489 | parseFloat reads "-" followed by the decimal text of n as -n, below the overflow threshold. |
| JsValues.TinyLiteralIsZero | script.js:489 | parseFloat("1e-k") is zero once 3k is at least 1075. |
| JsValues.HugeLiteralIsInfinity | script.js:489 | parseFloat("1ek") is Infinity once 3k is at least 1024. |
| Attendance.MarkEach | script.js:362-383 | The earlier records stay as a prefix. Every appended record is the present mark of one of the students, built with that student's stamp. |
| Attendance.MarkEachMarksEveryone | script.js:362-383 | After marking, every student has a record on the date. |
| Attendance.MarkEachOnlyUnmarked | script.js:375-382 | Every appended record belongs to a student who had no record on the date before. |
| Attendance.MarkEachDistinctIds | script.js:375-382 | No two appended records carry the same student id. |
| Attendance.AppendedIdsAreUnmarked | script.js:362-383 | The set of student ids appended equals the set of ids of the students who had no record on the date. |
| Attendance.MarkEachAddsOnePerUnmarked | script.js:362-383 | The list grows by exactly the number of distinct unmarked student ids. |
| Attendance.MarkEachAllMarked | script.js:375-382 | When every student already has a record on the date, marking appends nothing. |
| Attendance.MarkEachIdempotent | script.js:362-383 | A second marking run for the same date leaves the list as the first run left it. |
| Attendance.MarkEachKeepsMarksUnique | script.js:375-382 | If no student had two records on one date before, none has after marking. |
| Attendance.MarkAttendance | script.js:352-390 | Without students, the command is refused and changes nothing. Otherwise the attendance list is the result of marking every student on the chosen date, the other lists are unchanged, and the command is logged. |
| Attendance.MarkAttendanceIdempotent | script.js:352-390 | Running the command twice for the same date leaves the attendance list as the first run left it. |
| Attendance.UpdateStatus | script.js:442-447 | The status of the record at the index of the full list changes and every other record stays. An index past the end changes nothing. |
| Attendance.UpdateStatusKeepsMarksUnique | script.js:442-443 | A status edit keeps at most one record per student and date. |
| Attendance.ViewFrom | script.js:400-406 | The rows of the table are, in order, exactly the positions of the records on the date and of the selected class. |
| Attendance.RowIndexEditsWrongRecord | script.js:406-443 | Take a list whose first record is on another date. Editing the only row shown changes that first record and leaves the shown record unchanged. |
| Attendance.UpdateStatusInView | script.js:406-447 | The row index is mapped through the view. The record that row shows gets the new status, and every other record and every other list is unchanged. |
| Attendance.CountOnIsPositions | script.js:452 | The count of records on the date equals the number of positions whose date matches. |
| Attendance.CountStatusIsPositions | script.js:454-456 | The count for a status equals the number of positions on the date with that status. |
| Attendance.StatusCountsPartition | script.js:452-457 | The four status counts of a date add up to its total. |
| Attendance.AttendanceSummary | script.js:449-463 | Present, absent and late are the numbers of records on the date with that status, and the total is the number of records on the date. The gap between the total and the three counts is the number of excused records. |
| Attendance.CountsAfterPresentMarks | script.js:369-382 | Appending present records on one date raises that date's total and present count by the number appended, keeps its absent and late counts, and leaves every other date's counts alone. |
| Attendance.MarkEachCounts | script.js:362-383 | Bulk marking raises the total and present count of its date by the number of distinct students that had no record on it; the absent and late counts of that date stay. |
| Attendance.MarkEachKeepsOtherDates | script.js:362-383 | Bulk marking leaves the total, present, absent and late counts of every other date unchanged. |
| Attendance.MarkEachLeavesDateNonEmpty | script.js:362-383 | With at least one student, the marked date has a record after bulk marking. |
| Attendance.MarkedDateShowsInSummary | script.js:358-389 | Marking, then the summary it triggers, both take the date input or else today. On that date, total and present each rise by the number of distinct unmarked students, absent and late stay, and the total is at least one. |
| Attendance.MarkingKeepsOtherSummaries | script.js:352-389 | Marking attendance, refused or not, leaves the summary of every date other than the chosen one unchanged. |
| Attendance.SummaryTotalIsViewSize | script.js:400-457 | The summary's total equals the number of rows the table shows for the date when no class is selected. |
| Attendance.AttendanceRate | script.js:110-114 | The rate is 0 without students. Otherwise it is today's record count as a whole percentage of the students, rounded to nearest: an exact half rounds down when halfDown holds and up otherwise. It lies in 0..100 when there are no more records than students. |
| Attendance.Percent | script.js:113-114 | count out of n, as a whole percentage rounded to nearest, with an exact half resolved by halfDown. |
| Attendance.RoundRate | script.js:114 | Math.round of 100 * count / n is the nearest integer, with halves rounded up. |
| Attendance.TwentyThreeOfForty | script.js:113-114 | 23 records among 40 students give 58 by exact rounding and 57 when the double lands below the half. |
| TimeAgo.Bucket | script.js:647-654 | Under a minute, including negative spans, the phrase is "just now". Below an hour it is whole minutes, below a day whole hours, and otherwise whole days, each between n and n+1 units. An unparsable timestamp gives the NaN case. |
| TimeAgo.FormatTimeAgo | script.js:642-655 | Under a minute the text is "Just now". An unparsable timestamp gives "NaN day ago". |
| TimeAgo.UnitFollowsSpan | script.js:651-654 | From one minute on, the text is the count, then "minute", "hour" or "day" as the span's length calls for, with "s" above one, then "ago". |
| TimeAgo.PluralExactlyAboveOne | script.js:652-654 | The unit has a plural "s" exactly when the count is above one. |
| TimeAgo.CountReadsBack | script.js:652-654 | parseInt of the text gives back the bucket's count. |

## Left out

- Rendering and other UI code is not modelled: the DOM, the tables' HTML, toasts, navigation, the print window, the search and CSV export, and the exam and e-learning stubs. All of it is presentation only.
- Storage and timing are not modelled: localStorage loading and saving, JSON, the auto-save timer and the system info panel. These are browser I/O and timers.
- updateTrends, the fee totals and the monthly collection are not modelled. They use random numbers, floating-point sums and Date parsing.
- generateID, `new Date()` and the receipt number are not computed. Each command takes them as parameters: a `Stamp` (an identifier and a clock reading), the receipt text, and today's date.
- ActivityLog.AddActivity: the description is the `Event` datatype, not the English text built at script.js:194, 242, 282, 314, 388, 446 and 507. In particular, the JavaScript number-to-text conversion inside the fee message is not modelled.
- Attendance.MarkAttendance: takes one `Stamp` per student, which stands for the generateID call and the clock reading made for that student. The values are not computed.
- Students.UpdateStudent: an index two or more past the end would leave holes in the JavaScript array. The model requires index <= |students| and does not promise anything for those indices.
- Students.NextRoll: rolls are unbounded integers. JavaScript reads them as doubles, so above 2^53 parseInt loses precision and adding one may give the same number. parseInt reads a roll as Infinity exactly when its value is at least 2^1024 - 2^970 (about 1.8e308), however many digits it has, since leading zeros do not change the value. This is the same threshold ToDouble uses. The "greater than every roll" promise holds for the program only below 2^53.
- Fees.SaveFee: parseFloat rounds to zero and to Infinity at the limits of a double. Other finite amounts are kept exact rather than rounded to 53 bits. That rounding cannot turn a nonzero amount into zero, so it does not change which amounts are refused.
- Attendance.AttendanceRate: halfDown decides only the case where the exact share is a half. The model assumes that the double error of (c / n) * 100, for c records among n students, never moves any other share across a half. The error is at most about (100c/n) * 2^-52, and a share that is not a half lies at least 1/(2n) away from one, so crossing needs 200c >= 2^52. That cannot happen, because a JavaScript array holds fewer than 2^32 records.
- TimeAgo.FormatTimeAgo: takes the elapsed milliseconds, or Invalid when `new Date(timestamp)` does not parse. Date parsing and the clock are not modelled.
- Students.SaveStudent: which handler the student form's save button runs is not modelled. After editStudent the button stays bound to updateStudent(index) (script.js:261-263); neither showStudentForm nor cancelForm (script.js:155-168, 794-798) binds it back, so from then on adding a student runs UpdateStudent, not SaveStudent. Students.AddFormAfterEditOverwrites states what that does, and the Findings table records it.
- Students.DeleteStudent: an index past the end throws a TypeError in JavaScript before anything changes. The model returns `Rejected(NoSuchIndex)` with the store unchanged, and the same holds for Attendance.UpdateStatus. Negative indices never come from the tables and are not modelled.

## Findings

| source | as written | input that shows it | evidently intended | confidence | as-written member | corrected member |
|---|---|---|---|---|---|---|
| script.js:443 | `updateAttendanceStatus(index, …)` sets `attendance[index]`. The index is the row's position in the table, which lists only the records on the chosen date and class (script.js:400-406, 416). | Two records: the first on 2024-01-10, the second on 2024-01-11. The table for 2024-01-11 shows one row. Choosing "absent" in that row changes the 2024-01-10 record, and the shown record stays present. | The row's index is mapped through the filtered view to the record the row shows. | high; not executed | Attendance.RowIndexEditsWrongRecord | Attendance.UpdateStatusInView |
| script.js:263 | editStudent binds the student form's save button to `updateStudent(index)`. Nothing binds it back to saveStudent: showStudentForm (script.js:155-168) only clears and refills the fields, and cancelForm (script.js:794-798) only hides the form. | Edit student 0, cancel, click add, type a new student "Bea" with roll 1002 and save. Student 0 is replaced by Bea, who keeps student 0's id, and no student is added. A form with an empty name is accepted the same way. | Opening the form to add a student makes its save button run saveStudent again, which validates the form and appends a new student. | medium; the button's first binding lives in the page's HTML, which is not part of this model; not executed | Students.AddFormAfterEditOverwrites | Students.SaveStudent |

=== FILE: activity_log.dfy ===
/** The activity log: newest entry first, at most 50 entries kept. */
module ActivityLog {
  import opened Records

  const MaxEntries := 50

  /** The entry addActivity builds for an event. */
  function Entry(event: Event, stamp: Stamp): ActivityEntry {
    ActivityEntry(stamp.id, event, Admin, stamp.now, HistoryIcon)
  }

  /** addActivity: put the entry in front and drop whatever lies beyond the
      first 50. */
  function AddActivity(log: seq<ActivityEntry>, entry: ActivityEntry): (r: seq<ActivityEntry>)
    ensures |r| == if |log| < MaxEntries then |log| + 1 else MaxEntries
    ensures r[0] == entry
    ensures forall i :: 1 <= i < |r| ==> r[i] == log[i - 1]
  {
    var pushed := [entry] + log;
    if |pushed| > MaxEntries then pushed[..MaxEntries] else pushed
  }

  /** The store with one more log entry; nothing else changes. */
  function Logged(st: Store, event: Event, stamp: Stamp): Store {
    st.(activities := AddActivity(st.activities, Entry(event, stamp)))
  }

  /** The log after recording the entries one after the other. */
  function Replay(log: seq<ActivityEntry>, entries: seq<ActivityEntry>): seq<ActivityEntry>
    decreases |entries|
  {
    if |entries| == 0 then log else Replay(AddActivity(log, entries[0]), entries[1..])
  }

  function Reverse<T>(s: seq<T>): (r: seq<T>)
    ensures |r| == |s|
    ensures forall i :: 0 <= i < |s| ==> r[i] == s[|s| - 1 - i]
  {
    if |s| == 0 then [] else Reverse(s[1..]) + [s[0]]
  }

  /** The first MaxEntries elements of s. */
  function Newest<T>(s: seq<T>): seq<T> {
    if |s| > MaxEntries then s[..MaxEntries] else s
  }

  lemma NewestOfAppendNewest<T>(a: seq<T>, b: seq<T>)
    ensures Newest(a + Newest(b)) == Newest(a + b)
  {
    if |b| > MaxEntries {
      assert (a + b[..MaxEntries])[..MaxEntries] == (a + b)[..MaxEntries];
    }
  }

  lemma AddActivityIsNewest(log: seq<ActivityEntry>, entry: ActivityEntry)
    ensures AddActivity(log, entry) == Newest([entry] + log)
  {
  }

  lemma ReverseOfCons<T>(s: seq<T>)
    requires |s| > 0
    ensures Reverse(s) == Reverse(s[1..]) + [s[0]]
  {
  }

  lemma AppendShift<T>(a: seq<T>, e: T, b: seq<T>)
    ensures a + ([e] + b) == (a + [e]) + b
  {
  }

  /** However many entries are recorded, the log holds the most recent ones,
      newest first, followed by what it held before, cut to 50 entries. */
  lemma {:induction false} ReplayKeepsNewestFirst(log: seq<ActivityEntry>, entries: seq<ActivityEntry>)
    requires |log| <= MaxEntries
    ensures Replay(log, entries) == Newest(Reverse(entries) + log)
    decreases |entries|
  {
    if |entries| > 0 {
      var e := entries[0];
      var rest := entries[1..];
      var log1 := AddActivity(log, e);
      AddActivityIsNewest(log, e);
      ReplayKeepsNewestFirst(log1, rest);
      NewestOfAppendNewest(Reverse(rest), [e] + log);
      ReverseOfCons(entries);
      AppendShift(Reverse(rest), e, log);
    }
  }

  /** The bound and the order of the log, as a reader of the dashboard sees
      them after any number of logged actions. */
  lemma ReplayBoundedNewestFirst(log: seq<ActivityEntry>, entries: seq<ActivityEntry>)
    requires |log| <= MaxEntries
    ensures |Replay(log, entries)| <= MaxEntries
    ensures |entries| > 0 ==>
      |Replay(log, entries)| > 0 && Replay(log, entries)[0] == entries[|entries| - 1]
  {
    ReplayKeepsNewestFirst(log, entries);
  }
}

=== FILE: attendance.dfy ===
/** Attendance: bulk marking, the per-row status edit, the table's filtered
    view, the per-date summary and the dashboard's attendance rate. */
module Attendance {
  import opened Optional
  import opened JsValues
  import opened Records
  import opened ActivityLog

  /** The date the attendance screen works on: the date input, or today
      when it is empty. */
  function ChosenDate(dateInput: string, today: string): (d: string)
    ensures dateInput != "" ==> d == dateInput
    ensures dateInput == "" ==> d == today
  {
    if dateInput != "" then dateInput else today
  }

  /** Some record marks the student on the date. */
  predicate HasRecord(att: seq<AttendanceRecord>, studentId: Option<string>, date: string) {
    exists k :: 0 <= k < |att| && att[k].studentId == studentId && att[k].date == date
  }

  /** The record markAttendance builds for a student, with the identifier
      and the clock reading taken for that student. */
  function NewMark(s: Student, stamp: Stamp, date: string): AttendanceRecord {
    AttendanceRecord(stamp.id, s.id, s.name, s.className, date, Present, "", Admin, stamp.now)
  }

  /** No two records mark the same student on the same date. */
  predicate NoDuplicateMarks(att: seq<AttendanceRecord>) {
    forall k1, k2 :: 0 <= k1 < k2 < |att| ==>
      att[k1].studentId != att[k2].studentId || att[k1].date != att[k2].date
  }

  lemma HasRecordInLonger(a: seq<AttendanceRecord>, b: seq<AttendanceRecord>, id: Option<string>, date: string)
    requires |a| <= |b| && b[..|a|] == a
    requires HasRecord(a, id, date)
    ensures HasRecord(b, id, date)
  {
    var k :| 0 <= k < |a| && a[k].studentId == id && a[k].date == date;
    assert b[k] == b[..|a|][k];
  }

  lemma NoRecordInShorter(a: seq<AttendanceRecord>, b: seq<AttendanceRecord>, id: Option<string>, date: string)
    requires |a| <= |b| && b[..|a|] == a
    requires !HasRecord(b, id, date)
    ensures !HasRecord(a, id, date)
  {
    if HasRecord(a, id, date) {
      HasRecordInLonger(a, b, id, date);
    }
  }

  /** One turn of the loop of markAttendance: append the student's mark
      unless the list already marks the student on the date. */
  function MarkOne(att: seq<AttendanceRecord>, s: Student, stamp: Stamp, date: string): (r: seq<AttendanceRecord>)
    ensures HasRecord(r, s.id, date)
    ensures |r| == |att| <==> HasRecord(att, s.id, date)
    ensures |att| <= |r| <= |att| + 1 && r[..|att|] == att
    ensures |r| == |att| + 1 ==> r[|att|] == NewMark(s, stamp, date)
  {
    if HasRecord(att, s.id, date) then att
    else
      var r := att + [NewMark(s, stamp, date)];
      assert r[|att|].studentId == s.id;
      r
  }

  /** The loop of markAttendance: for each student in turn, append a present
      mark unless the list, as it stands at that moment, already marks the
      student on the date. stamps[j] is the identifier and clock reading
      taken while handling students[j]. */
  function MarkEach(att: seq<AttendanceRecord>, students: seq<Student>, stamps: seq<Stamp>,
                    date: string): (r: seq<AttendanceRecord>)
    requires |stamps| == |students|
    ensures |att| <= |r| && r[..|att|] == att
    ensures forall k :: |att| <= k < |r| ==>
      exists j :: 0 <= j < |students| && r[k] == NewMark(students[j], stamps[j], date)
    decreases |students|
  {
    if |students| == 0 then att
    else
      var s := students[0];
      var next := MarkOne(att, s, stamps[0], date);
      var r := MarkEach(next, students[1..], stamps[1..], date);
      assert r[..|att|] == att by {
        assert r[..|next|][..|att|] == att;
      }
      forall k | |att| <= k < |r|
        ensures exists j :: 0 <= j < |students| && r[k] == NewMark(students[j], stamps[j], date)
      {
        if k < |next| {
          assert r[k] == r[..|next|][k];
          assert r[k] == NewMark(students[0], stamps[0], date);
        } else {
          var j :| 0 <= j < |students| - 1 && r[k] == NewMark(students[1..][j], stamps[1..][j], date);
          assert r[k] == NewMark(students[j + 1], stamps[j + 1], date);
        }
      }
      r
  }

  /** After bulk marking, every student has a mark on the date. */
  lemma {:induction false} MarkEachMarksEveryone(att: seq<AttendanceRecord>, students: seq<Student>,
                                                 stamps: seq<Stamp>, date: string)
    requires |stamps| == |students|
    ensures forall j :: 0 <= j < |students| ==> HasRecord(MarkEach(att, students, stamps, date), students[j].id, date)
    decreases |students|
  {
    if |students| > 0 {
      var s := students[0];
      var next := MarkOne(att, s, stamps[0], date);
      var r := MarkEach(next, students[1..], stamps[1..], date);
      assert r == MarkEach(att, students, stamps, date);
      MarkEachMarksEveryone(next, students[1..], stamps[1..], date);
      HasRecordInLonger(next, r, s.id, date);
      forall j | 0 <= j < |students| ensures HasRecord(r, students[j].id, date) {
        if j > 0 { assert students[j] == students[1..][j - 1]; }
      }
    }
  }

  /** Bulk marking appends only marks of students who had none on the date
      before. */
  lemma {:induction false} MarkEachOnlyUnmarked(att: seq<AttendanceRecord>, students: seq<Student>,
                                                stamps: seq<Stamp>, date: string)
    requires |stamps| == |students|
    ensures forall k :: |att| <= k < |MarkEach(att, students, stamps, date)| ==>
      !HasRecord(att, MarkEach(att, students, stamps, date)[k].studentId, date)
    decreases |students|
  {
    if |students| > 0 {
      var s := students[0];
      var next := MarkOne(att, s, stamps[0], date);
      var r := MarkEach(next, students[1..], stamps[1..], date);
      assert r == MarkEach(att, students, stamps, date);
      MarkEachOnlyUnmarked(next, students[1..], stamps[1..], date);
      forall k | |att| <= k < |r| ensures !HasRecord(att, r[k].studentId, date) {
        if k < |next| {
          assert r[k] == r[..|next|][k];
        } else {
          NoRecordInShorter(att, next, r[k].studentId, date);
        }
      }
    }
  }

  /** Bulk marking appends at most one mark per student id. */
  lemma {:induction false} MarkEachDistinctIds(att: seq<AttendanceRecord>, students: seq<Student>,
                                               stamps: seq<Stamp>, date: string)
    requires |stamps| == |students|
    ensures forall k1, k2 :: |att| <= k1 < k2 < |MarkEach(att, students, stamps, date)| ==>
      MarkEach(att, students, stamps, date)[k1].studentId
      != MarkEach(att, students, stamps, date)[k2].studentId
    decreases |students|
  {
    if |students| > 0 {
      var s := students[0];
      var next := MarkOne(att, s, stamps[0], date);
      var r := MarkEach(next, students[1..], stamps[1..], date);
      assert r == MarkEach(att, students, stamps, date);
      MarkEachDistinctIds(next, students[1..], stamps[1..], date);
      MarkEachOnlyUnmarked(next, students[1..], stamps[1..], date);
      forall k1, k2 | |att| <= k1 < k2 < |r| ensures r[k1].studentId != r[k2].studentId {
        if k1 < |next| {
          assert r[k1] == r[..|next|][k1];
        }
      }
    }
  }

  /** markAttendance: refuse when there are no students; otherwise mark every
      student without a record on the chosen date present and log it. */
  function MarkAttendance(st: Store, dateInput: string, today: string, stamps: seq<Stamp>,
                          log: Stamp): (r: Reply)
    requires |stamps| == |st.students|
    ensures |st.students| == 0 ==> r == Reply(st, Rejected(NoStudents))
    ensures |st.students| > 0 ==>
      && r.outcome == Done
      && r.store.attendance == MarkEach(st.attendance, st.students, stamps, ChosenDate(dateInput, today))
      && r.store.students == st.students
      && r.store.staff == st.staff
      && r.store.fees == st.fees
      && r.store.activities == AddActivity(st.activities, Entry(MarkedAttendance, log))
  {
    if |st.students| == 0 then Reply(st, Rejected(NoStudents))
    else
      var date := ChosenDate(dateInput, today);
      var att := MarkEach(st.attendance, st.students, stamps, date);
      Reply(Logged(st.(attendance := att), MarkedAttendance, log), Done)
  }

  /** The stamps of the students who had no mark on the date. */
  function Unmarked(att: seq<AttendanceRecord>, students: seq<Student>, date: string): set<Option<string>> {
    set j | 0 <= j < |students| && !HasRecord(att, students[j].id, date) :: students[j].id
  }

  /** The student stamps of the records from position lo on. */
  function IdsFrom(r: seq<AttendanceRecord>, lo: nat): set<Option<string>>
    requires lo <= |r|
  {
    set k | lo <= k < |r| :: r[k].studentId
  }

  lemma {:induction false} DistinctIdsCount(r: seq<AttendanceRecord>, lo: nat)
    requires lo <= |r|
    requires forall k1, k2 :: lo <= k1 < k2 < |r| ==> r[k1].studentId != r[k2].studentId
    ensures |IdsFrom(r, lo)| == |r| - lo
    decreases |r| - lo
  {
    if lo < |r| {
      DistinctIdsCount(r, lo + 1);
      assert IdsFrom(r, lo) == {r[lo].studentId} + IdsFrom(r, lo + 1);
      assert r[lo].studentId !in IdsFrom(r, lo + 1);
    } else {
      assert IdsFrom(r, lo) == {};
    }
  }

  /** Every appended record belongs to a student who had no mark. */
  lemma AppendedIdsWithinUnmarked(att: seq<AttendanceRecord>, students: seq<Student>,
                                  stamps: seq<Stamp>, date: string)
    requires |stamps| == |students|
    ensures IdsFrom(MarkEach(att, students, stamps, date), |att|) <= Unmarked(att, students, date)
  {
    var r := MarkEach(att, students, stamps, date);
    MarkEachOnlyUnmarked(att, students, stamps, date);
    forall id | id in IdsFrom(r, |att|) ensures id in Unmarked(att, students, date) {
      var k :| |att| <= k < |r| && r[k].studentId == id;
      var j :| 0 <= j < |students| && r[k] == NewMark(students[j], stamps[j], date);
      assert students[j].id == id;
    }
  }

  /** Every student who had no mark gets an appended record. */
  lemma UnmarkedWithinAppendedIds(att: seq<AttendanceRecord>, students: seq<Student>,
                                  stamps: seq<Stamp>, date: string)
    requires |stamps| == |students|
    ensures Unmarked(att, students, date) <= IdsFrom(MarkEach(att, students, stamps, date), |att|)
  {
    var r := MarkEach(att, students, stamps, date);
    MarkEachMarksEveryone(att, students, stamps, date);
    forall k | 0 <= k < |att| ensures HasRecord(att, r[k].studentId, r[k].date) {
      assert r[k] == r[..|att|][k];
    }
    forall id | id in Unmarked(att, students, date) ensures id in IdsFrom(r, |att|) {
      var j :| 0 <= j < |students| && !HasRecord(att, students[j].id, date) && students[j].id == id;
      var k :| 0 <= k < |r| && r[k].studentId == id && r[k].date == date;
      assert |att| <= k;
    }
  }

  /** The student ids of the appended records are the ids of the students
      who had no mark on the date. */
  lemma AppendedIdsAreUnmarked(att: seq<AttendanceRecord>, students: seq<Student>,
                               stamps: seq<Stamp>, date: string)
    requires |stamps| == |students|
    ensures IdsFrom(MarkEach(att, students, stamps, date), |att|) == Unmarked(att, students, date)
  {
    AppendedIdsWithinUnmarked(att, students, stamps, date);
    UnmarkedWithinAppendedIds(att, students, stamps, date);
  }

  /** Bulk marking adds exactly one record per distinct student id that had
      no mark on the date, and nothing for anyone else. */
  lemma MarkEachAddsOnePerUnmarked(att: seq<AttendanceRecord>, students: seq<Student>,
                                   stamps: seq<Stamp>, date: string)
    requires |stamps| == |students|
    ensures |MarkEach(att, students, stamps, date)| == |att| + |Unmarked(att, students, date)|
  {
    var r := MarkEach(att, students, stamps, date);
    MarkEachDistinctIds(att, students, stamps, date);
    AppendedIdsAreUnmarked(att, students, stamps, date);
    DistinctIdsCount(r, |att|);
  }

  /** A second run for the same date adds nothing: every student is marked. */
  lemma MarkEachIdempotent(att: seq<AttendanceRecord>, students: seq<Student>, stamps: seq<Stamp>,
                           stamps2: seq<Stamp>, date: string)
    requires |stamps| == |students| && |stamps2| == |students|
    ensures var once := MarkEach(att, students, stamps, date);
            MarkEach(once, students, stamps2, date) == once
  {
    var once := MarkEach(att, students, stamps, date);
    MarkEachMarksEveryone(att, students, stamps, date);
    MarkEachAllMarked(once, students, stamps2, date);
  }

  /** When every student already has a mark on the date, bulk marking
      appends nothing. */
  lemma {:induction false} MarkEachAllMarked(att: seq<AttendanceRecord>, students: seq<Student>,
                                             stamps: seq<Stamp>, date: string)
    requires |stamps| == |students|
    requires forall j :: 0 <= j < |students| ==> HasRecord(att, students[j].id, date)
    ensures MarkEach(att, students, stamps, date) == att
    decreases |students|
  {
    if |students| > 0 {
      assert HasRecord(att, students[0].id, date);
      forall j | 0 <= j < |students| - 1 ensures HasRecord(att, students[1..][j].id, date) {
        assert students[1..][j] == students[j + 1];
      }
      MarkEachAllMarked(att, students[1..], stamps[1..], date);
    }
  }

  /** Running markAttendance twice for the same date leaves the attendance
      list as the first run left it. */
  lemma MarkAttendanceIdempotent(st: Store, dateInput: string, today: string, stamps: seq<Stamp>,
                                 stamps2: seq<Stamp>, log: Stamp, log2: Stamp)
    requires |stamps| == |st.students| && |stamps2| == |st.students|
    ensures var once := MarkAttendance(st, dateInput, today, stamps, log).store;
            MarkAttendance(once, dateInput, today, stamps2, log2).store.attendance == once.attendance
  {
    if |st.students| > 0 {
      MarkEachIdempotent(st.attendance, st.students, stamps, stamps2, ChosenDate(dateInput, today));
    }
  }

  /** Bulk marking never creates a second mark for a student on a date. */
  lemma MarkEachKeepsMarksUnique(att: seq<AttendanceRecord>, students: seq<Student>,
                                 stamps: seq<Stamp>, date: string)
    requires |stamps| == |students|
    requires NoDuplicateMarks(att)
    ensures NoDuplicateMarks(MarkEach(att, students, stamps, date))
  {
    var r := MarkEach(att, students, stamps, date);
    MarkEachOnlyUnmarked(att, students, stamps, date);
    MarkEachDistinctIds(att, students, stamps, date);
    forall k1, k2 | 0 <= k1 < k2 < |r|
      ensures r[k1].studentId != r[k2].studentId || r[k1].date != r[k2].date
    {
      if k2 < |att| {
        assert r[k1] == att[k1] && r[k2] == att[k2] by {
          assert r[k1] == r[..|att|][k1] && r[k2] == r[..|att|][k2];
        }
      } else if k1 < |att| {
        assert r[k1] == r[..|att|][k1];
        var j :| 0 <= j < |students| && r[k2] == NewMark(students[j], stamps[j], date);
        assert r[k2].date == date;
        assert !HasRecord(att, r[k2].studentId, date);
      }
    }
  }

  /** updateAttendanceStatus(index, status): set the status of the record at
      position index of the FULL attendance list (an index past the end
      throws before anything changes) and log it. */
  function UpdateStatus(st: Store, index: nat, status: AttendanceStatus, log: Stamp): (r: Reply)
    ensures index >= |st.attendance| ==> r == Reply(st, Rejected(NoSuchIndex))
    ensures index < |st.attendance| ==>
      && r.outcome == Done
      && |r.store.attendance| == |st.attendance|
      && r.store.attendance[index] == st.attendance[index].(status := status)
      && (forall k :: 0 <= k < |st.attendance| && k != index ==> r.store.attendance[k] == st.attendance[k])
      && r.store.students == st.students
      && r.store.staff == st.staff
      && r.store.fees == st.fees
      && r.store.activities == AddActivity(st.activities, Entry(UpdatedAttendanceStatus(status), log))
  {
    if index >= |st.attendance| then Reply(st, Rejected(NoSuchIndex))
    else
      var att := st.attendance[index := st.attendance[index].(status := status)];
      Reply(Logged(st.(attendance := att), UpdatedAttendanceStatus(status), log), Done)
  }

  /** A status edit keeps the one-mark-per-student-and-date invariant. */
  lemma UpdateStatusKeepsMarksUnique(st: Store, index: nat, status: AttendanceStatus, log: Stamp)
    requires NoDuplicateMarks(st.attendance)
    ensures NoDuplicateMarks(UpdateStatus(st, index, status, log).store.attendance)
  {
    var r := UpdateStatus(st, index, status, log).store.attendance;
    if index < |st.attendance| {
      forall k1, k2 | 0 <= k1 < k2 < |r|
        ensures r[k1].studentId != r[k2].studentId || r[k1].date != r[k2].date
      {
        assert r[k1].studentId == st.attendance[k1].studentId && r[k1].date == st.attendance[k1].date;
        assert r[k2].studentId == st.attendance[k2].studentId && r[k2].date == st.attendance[k2].date;
      }
    }
  }

  /** The attendance table shows a record when it is on the date and, if a
      class is selected, of that class. */
  predicate Shown(a: AttendanceRecord, date: string, selectedClass: string) {
    a.date == date && (selectedClass == "" || a.studentClass == selectedClass)
  }

  /** Positions in the full list, from lo on, of the records the table
      shows, in table order. */
  function ViewFrom(att: seq<AttendanceRecord>, date: string, selectedClass: string, lo: nat): (rows: seq<nat>)
    requires lo <= |att|
    ensures forall i :: 0 <= i < |rows| ==> lo <= rows[i] < |att| && Shown(att[rows[i]], date, selectedClass)
    ensures forall k :: lo <= k < |att| && Shown(att[k], date, selectedClass) ==> k in rows
    ensures forall i, j :: 0 <= i < j < |rows| ==> rows[i] < rows[j]
    decreases |att| - lo
  {
    if lo == |att| then []
    else if Shown(att[lo], date, selectedClass) then [lo] + ViewFrom(att, date, selectedClass, lo + 1)
    else ViewFrom(att, date, selectedClass, lo + 1)
  }

  /** Row i of the attendance table shows the record at position
      View(...)[i] of the full list. */
  function View(att: seq<AttendanceRecord>, date: string, selectedClass: string): seq<nat> {
    ViewFrom(att, date, selectedClass, 0)
  }

  /** The status selector of a table row calls updateAttendanceStatus with
      the row's position in the filtered view, which is taken as a position in
      the full list: on a list whose first record is on another date, editing
      the only row shown changes that other record and leaves the shown one
      as it was. */
  lemma RowIndexEditsWrongRecord(a: AttendanceRecord, b: AttendanceRecord, log: Stamp)
    requires a.date == "2024-01-10" && b.date == "2024-01-11" && b.status == Present
    ensures View([a, b], "2024-01-11", "") == [1]
    ensures var r := UpdateStatus(Store([], [], [a, b], [], []), 0, Absent, log).store.attendance;
            r[0].status == Absent && r[0].date != "2024-01-11" && r[1] == b && r[1].status == Present
  {
    var att := [a, b];
    assert ViewFrom(att, "2024-01-11", "", 2) == [];
    assert ViewFrom(att, "2024-01-11", "", 1) == [1];
  }

  /** The status edit with the row index mapped through the view to the
      record the row shows, as the table presents it to the user. */
  function UpdateStatusInView(st: Store, date: string, selectedClass: string, row: nat,
                              status: AttendanceStatus, log: Stamp): (r: Reply)
    ensures row >= |View(st.attendance, date, selectedClass)| ==> r == Reply(st, Rejected(NoSuchIndex))
    ensures row < |View(st.attendance, date, selectedClass)| ==>
      var k := View(st.attendance, date, selectedClass)[row];
      && r.outcome == Done
      && k < |st.attendance|
      && Shown(st.attendance[k], date, selectedClass)
      && |r.store.attendance| == |st.attendance|
      && r.store.attendance[k] == st.attendance[k].(status := status)
      && (forall j :: 0 <= j < |st.attendance| && j != k ==> r.store.attendance[j] == st.attendance[j])
      && r.store.students == st.students
      && r.store.staff == st.staff
      && r.store.fees == st.fees
      && r.store.activities == AddActivity(st.activities, Entry(UpdatedAttendanceStatus(status), log))
  {
    var rows := View(st.attendance, date, selectedClass);
    if row >= |rows| then Reply(st, Rejected(NoSuchIndex))
    else UpdateStatus(st, rows[row], status, log)
  }

  /** Number of records on the date. */
  function CountOn(att: seq<AttendanceRecord>, date: string): nat {
    if |att| == 0 then 0
    else CountOn(att[..|att| - 1], date) + (if att[|att| - 1].date == date then 1 else 0)
  }

  /** Number of records on the date with the given status. */
  function CountStatus(att: seq<AttendanceRecord>, date: string, status: AttendanceStatus): nat {
    if |att| == 0 then 0
    else
      var last := att[|att| - 1];
      CountStatus(att[..|att| - 1], date, status) + (if last.date == date && last.status == status then 1 else 0)
  }

  /** Every record on the date has exactly one of the four statuses. */
  lemma {:induction false} StatusCountsPartition(att: seq<AttendanceRecord>, date: string)
    ensures CountStatus(att, date, Present) + CountStatus(att, date, Absent)
          + CountStatus(att, date, Late) + CountStatus(att, date, Excused) == CountOn(att, date)
  {
    if |att| > 0 {
      StatusCountsPartition(att[..|att| - 1], date);
    }
  }

  /** The positions of the records on the date: the array filter(a =>
      a.date === date) keeps exactly these. */
  function PositionsOn(att: seq<AttendanceRecord>, date: string): set<int> {
    set k | 0 <= k < |att| && att[k].date == date
  }

  /** The positions of the records on the date with the given status. */
  function PositionsWith(att: seq<AttendanceRecord>, date: string, status: AttendanceStatus): set<int> {
    set k | 0 <= k < |att| && att[k].date == date && att[k].status == status
  }

  /** The positions on the date are those before the last record plus,
      when it is on the date, the last one. */
  lemma PositionsOnSplit(att: seq<AttendanceRecord>, date: string)
    requires |att| > 0
    ensures var n := |att| - 1;
            PositionsOn(att, date) == PositionsOn(att[..n], date) + (if att[n].date == date then {n} else {})
  {
    var n := |att| - 1;
    forall k | 0 <= k < n ensures att[..n][k] == att[k] { }
  }

  lemma PositionsWithSplit(att: seq<AttendanceRecord>, date: string, status: AttendanceStatus)
    requires |att| > 0
    ensures var n := |att| - 1;
            PositionsWith(att, date, status)
            == PositionsWith(att[..n], date, status)
               + (if att[n].date == date && att[n].status == status then {n} else {})
  {
    var n := |att| - 1;
    forall k | 0 <= k < n ensures att[..n][k] == att[k] { }
  }

  lemma {:induction false} CountOnIsPositions(att: seq<AttendanceRecord>, date: string)
    ensures CountOn(att, date) == |PositionsOn(att, date)|
  {
    if |att| == 0 {
      assert PositionsOn(att, date) == {};
    } else {
      var n := |att| - 1;
      CountOnIsPositions(att[..n], date);
      PositionsOnSplit(att, date);
      assert n !in PositionsOn(att[..n], date);
    }
  }

  lemma {:induction false} CountStatusIsPositions(att: seq<AttendanceRecord>, date: string, status: AttendanceStatus)
    ensures CountStatus(att, date, status) == |PositionsWith(att, date, status)|
  {
    if |att| == 0 {
      assert PositionsWith(att, date, status) == {};
    } else {
      var n := |att| - 1;
      CountStatusIsPositions(att[..n], date, status);
      PositionsWithSplit(att, date, status);
      assert n !in PositionsWith(att[..n], date, status);
    }
  }

  datatype Summary = Summary(present: nat, absent: nat, late: nat, total: nat)

  /** updateAttendanceSummary: the counts shown for the chosen date. Excused
      records count towards the total only. */
  function AttendanceSummary(att: seq<AttendanceRecord>, date: string): (r: Summary)
    ensures r.present == |PositionsWith(att, date, Present)|
    ensures r.absent == |PositionsWith(att, date, Absent)|
    ensures r.late == |PositionsWith(att, date, Late)|
    ensures r.total == |PositionsOn(att, date)|
    ensures r.total - (r.present + r.absent + r.late) == |PositionsWith(att, date, Excused)|
  {
    StatusCountsPartition(att, date);
    CountOnIsPositions(att, date);
    CountStatusIsPositions(att, date, Present);
    CountStatusIsPositions(att, date, Absent);
    CountStatusIsPositions(att, date, Late);
    CountStatusIsPositions(att, date, Excused);
    Summary(CountStatus(att, date, Present), CountStatus(att, date, Absent),
            CountStatus(att, date, Late), CountOn(att, date))
  }

  lemma {:induction false} CountOnViewFrom(att: seq<AttendanceRecord>, date: string, lo: nat)
    requires lo <= |att|
    ensures CountOn(att, date) == CountOn(att[..lo], date) + |ViewFrom(att, date, "", lo)|
    decreases |att| - lo
  {
    if lo < |att| {
      CountOnViewFrom(att, date, lo + 1);
      assert att[..lo + 1][..lo] == att[..lo];
    } else {
      assert att[..lo] == att;
    }
  }

  /** The summary's total is the number of rows the table shows for the date
      when no class is selected. */
  lemma SummaryTotalIsViewSize(att: seq<AttendanceRecord>, date: string)
    ensures AttendanceSummary(att, date).total == |View(att, date, "")|
  {
    CountOnViewFrom(att, date, 0);
  }

  /** Appending present records on one date adds one to that date's total
      and present counts per record and leaves absent and late alone; the
      counts of every other date do not move. */
  lemma {:induction false} CountsAfterPresentMarks(att: seq<AttendanceRecord>, r: seq<AttendanceRecord>,
                                                   marked: string, shown: string)
    requires |att| <= |r| && r[..|att|] == att
    requires forall k :: |att| <= k < |r| ==> r[k].date == marked && r[k].status == Present
    ensures var added := if shown == marked then |r| - |att| else 0;
            && CountOn(r, shown) == CountOn(att, shown) + added
            && CountStatus(r, shown, Present) == CountStatus(att, shown, Present) + added
            && CountStatus(r, shown, Absent) == CountStatus(att, shown, Absent)
            && CountStatus(r, shown, Late) == CountStatus(att, shown, Late)
    decreases |r|
  {
    if |r| == |att| {
      assert r == r[..|att|];
    } else {
      var n := |r| - 1;
      assert r[..n][..|att|] == att;
      CountsAfterPresentMarks(att, r[..n], marked, shown);
    }
  }

  /** The records bulk marking appends are present marks on its date. */
  lemma {:induction false} MarkEachAppendsPresentMarks(att: seq<AttendanceRecord>, students: seq<Student>, stamps: seq<Stamp>,
                                    date: string)
    requires |stamps| == |students|
    ensures var r := MarkEach(att, students, stamps, date);
            forall k :: |att| <= k < |r| ==> r[k].date == date && r[k].status == Present
  {
    var r := MarkEach(att, students, stamps, date);
    forall k | |att| <= k < |r| ensures r[k].date == date && r[k].status == Present {
      var j :| 0 <= j < |students| && r[k] == NewMark(students[j], stamps[j], date);
    }
  }

  /** Bulk marking on a date adds one present record per distinct unmarked
      student to that date's total and present counts; absent and late stay. */
  lemma {:induction false} MarkEachCounts(att: seq<AttendanceRecord>, students: seq<Student>, stamps: seq<Stamp>, date: string)
    requires |stamps| == |students|
    ensures var r := MarkEach(att, students, stamps, date);
            var added := |Unmarked(att, students, date)|;
            && CountOn(r, date) == CountOn(att, date) + added
            && CountStatus(r, date, Present) == CountStatus(att, date, Present) + added
            && CountStatus(r, date, Absent) == CountStatus(att, date, Absent)
            && CountStatus(r, date, Late) == CountStatus(att, date, Late)
  {
    var r := MarkEach(att, students, stamps, date);
    MarkEachAppendsPresentMarks(att, students, stamps, date);
    MarkEachAddsOnePerUnmarked(att, students, stamps, date);
    CountsAfterPresentMarks(att, r, date, date);
  }

  /** Bulk marking on a date leaves the counts of every other date alone. */
  lemma {:induction false} MarkEachKeepsOtherDates(att: seq<AttendanceRecord>, students: seq<Student>, stamps: seq<Stamp>,
                                date: string, other: string)
    requires |stamps| == |students| && other != date
    ensures var r := MarkEach(att, students, stamps, date);
            && CountOn(r, other) == CountOn(att, other)
            && CountStatus(r, other, Present) == CountStatus(att, other, Present)
            && CountStatus(r, other, Absent) == CountStatus(att, other, Absent)
            && CountStatus(r, other, Late) == CountStatus(att, other, Late)
  {
    MarkEachAppendsPresentMarks(att, students, stamps, date);
    CountsAfterPresentMarks(att, MarkEach(att, students, stamps, date), date, other);
  }

  /** After bulk marking, the chosen date has a record whenever there is a
      student. */
  lemma {:induction false} MarkEachLeavesDateNonEmpty(att: seq<AttendanceRecord>, students: seq<Student>, stamps: seq<Stamp>,
                                   date: string)
    requires |stamps| == |students| && |students| > 0
    ensures |PositionsOn(MarkEach(att, students, stamps, date), date)| >= 1
  {
    var r := MarkEach(att, students, stamps, date);
    MarkEachMarksEveryone(att, students, stamps, date);
    assert HasRecord(r, students[0].id, date);
    var k :| 0 <= k < |r| && r[k].studentId == students[0].id && r[k].date == date;
    assert k in PositionsOn(r, date);
  }

  /** markAttendance followed by updateAttendanceSummary, both reading the
      same date input: the summary for the chosen date counts one more
      present record per distinct unmarked student and is never empty. */
  lemma {:induction false} MarkedDateShowsInSummary(st: Store, dateInput: string, today: string,
                                                    stamps: seq<Stamp>, log: Stamp)
    requires |stamps| == |st.students| && |st.students| > 0
    ensures var date := ChosenDate(dateInput, today);
            var before := AttendanceSummary(st.attendance, date);
            var after := AttendanceSummary(MarkAttendance(st, dateInput, today, stamps, log).store.attendance, date);
            var added := |Unmarked(st.attendance, st.students, date)|;
            && after.total == before.total + added
            && after.present == before.present + added
            && after.absent == before.absent && after.late == before.late
            && after.total >= 1
  {
    var date := ChosenDate(dateInput, today);
    var att := MarkEach(st.attendance, st.students, stamps, date);
    assert att == MarkAttendance(st, dateInput, today, stamps, log).store.attendance;
    MarkEachCounts(st.attendance, st.students, stamps, date);
    MarkEachLeavesDateNonEmpty(st.attendance, st.students, stamps, date);
  }

  /** markAttendance leaves the summary of every date but the chosen one
      unchanged. */
  lemma {:induction false} MarkingKeepsOtherSummaries(st: Store, dateInput: string, today: string,
                                                      stamps: seq<Stamp>, log: Stamp, other: string)
    requires |stamps| == |st.students| && other != ChosenDate(dateInput, today)
    ensures AttendanceSummary(MarkAttendance(st, dateInput, today, stamps, log).store.attendance, other)
            == AttendanceSummary(st.attendance, other)
  {
    if |st.students| > 0 {
      var date := ChosenDate(dateInput, today);
      assert MarkEach(st.attendance, st.students, stamps, date)
          == MarkAttendance(st, dateInput, today, stamps, log).store.attendance;
      MarkEachKeepsOtherDates(st.attendance, st.students, stamps, date, other);
    }
  }

  /** The attendance rate of updateDashboardStats: Math.round of the share of
      today's records among the students, as a percentage; 0 without
      students. The share is a double: where the exact share is a half, the
      product can land just below it (23 of 40 gives 57.49999999999999) and
      round down. halfDown says whether it does. */
  function AttendanceRate(att: seq<AttendanceRecord>, studentCount: nat, today: string, halfDown: bool): (r: int)
    ensures studentCount == 0 ==> r == 0
    ensures studentCount > 0 && !halfDown ==>
      2 * studentCount * r - studentCount <= 200 * |PositionsOn(att, today)| < 2 * studentCount * r + studentCount
    ensures studentCount > 0 && halfDown ==>
      2 * studentCount * r - studentCount < 200 * |PositionsOn(att, today)| <= 2 * studentCount * r + studentCount
    ensures |PositionsOn(att, today)| <= studentCount ==> 0 <= r <= 100
  {
    CountOnIsPositions(att, today);
    if studentCount > 0 then Percent(CountOn(att, today), studentCount, halfDown) else 0
  }

  /** count out of n as a whole percentage, rounded to nearest; an exact half
      goes down when halfDown holds and up otherwise. */
  function Percent(count: nat, n: nat, halfDown: bool): (r: int)
    requires n > 0
    ensures !halfDown ==> 2 * n * r - n <= 200 * count < 2 * n * r + n
    ensures halfDown ==> 2 * n * r - n < 200 * count <= 2 * n * r + n
    ensures count <= n ==> 0 <= r <= 100
  {
    var share := (count as real / n as real) * 100.0;
    var up := RoundRate(share, count, n);
    if halfDown && 2 * n * up - n == 200 * count then
      TieIsAboveZero(count, n, up);
      up - 1
    else up
  }

  /** An exact half lies above zero, so rounding it down stays at or above
      zero. */
  lemma TieIsAboveZero(c: nat, n: nat, u: int)
    requires n > 0 && 2 * n * u - n == 200 * c
    ensures u >= 1
  {
    if u <= 0 {
      IntMulMonotone(u, 0, 2 * n);
    }
  }

  /** 23 records among 40 students: the exact share 57.5 rounds to 58, the
      double just below it to 57. */
  lemma TwentyThreeOfForty(att: seq<AttendanceRecord>, today: string)
    requires |PositionsOn(att, today)| == 23
    ensures AttendanceRate(att, 40, today, false) == 58
    ensures AttendanceRate(att, 40, today, true) == 57
  {
  }

  /** Math.round of x = 100 * count / n: the integer nearest x, halves rounded up. */
  function RoundRate(x: real, count: nat, n: nat): (r: int)
    requires n > 0 && x * n as real == 100.0 * count as real
    ensures 2 * n * r - n <= 200 * count < 2 * n * r + n
    ensures count <= n ==> 0 <= r <= 100
  {
    var r := (x + 0.5).Floor;
    RoundingBounds(x, count, n, r);
    r
  }

  lemma RoundingBounds(x: real, count: nat, n: nat, r: int)
    requires n > 0 && x * n as real == 100.0 * count as real
    requires r as real <= x + 0.5 < r as real + 1.0
    ensures 2 * n * r - n <= 200 * count < 2 * n * r + n
    ensures count <= n ==> 0 <= r <= 100
  {
    ScaledBounds(x, n as real, r as real, 100.0 * count as real);
    IntBoundsAsReals(n, r);
    assert (200 * count) as real == 2.0 * (100.0 * count as real);
    if count <= n {
      RateWithinPercent(count, n, r);
    }
  }

  /** From R - 1/2 <= x < R + 1/2 and x * N == c, scaled by N. */
  lemma ScaledBounds(x: real, N: real, R: real, c: real)
    requires N > 0.0 && x * N == c
    requires R <= x + 0.5 < R + 1.0
    ensures (R - 0.5) * N <= c
    ensures c < (R + 0.5) * N
  {
    ScaledLower(x, N, R, c);
    ScaledUpper(x, N, R, c);
  }

  lemma ScaledLower(x: real, N: real, R: real, c: real)
    requires N > 0.0 && x * N == c && R <= x + 0.5
    ensures (R - 0.5) * N <= c
  {
    MulMonotone(R - 0.5, x, N);
  }

  lemma ScaledUpper(x: real, N: real, R: real, c: real)
    requires N > 0.0 && x * N == c && x + 0.5 < R + 1.0
    ensures c < (R + 0.5) * N
  {
    assert x < R + 0.5;
    MulStrict(x, R + 0.5, N);
    assert x * N < (R + 0.5) * N;
  }

  lemma IntBoundsAsReals(n: nat, r: int)
    ensures (2 * n * r - n) as real == 2.0 * ((r as real - 0.5) * n as real)
    ensures (2 * n * r + n) as real == 2.0 * ((r as real + 0.5) * n as real)
  {
    RealOfProduct(n, r);
    assert (2 * n * r) as real == 2.0 * ((n * r) as real);
  }

  lemma RealOfProduct(a: int, b: int)
    ensures (a * b) as real == a as real * b as real
  {
  }

  lemma RateWithinPercent(count: nat, n: nat, r: int)
    requires n > 0 && count <= n
    requires 2 * n * r - n <= 200 * count < 2 * n * r + n
    ensures 0 <= r <= 100
  {
    if r > 100 {
      IntMulMonotone(101, r, 2 * n);
    }
    if r < 0 {
      IntMulMonotone(r, -1, 2 * n);
    }
  }

  lemma MulMonotone(a: real, b: real, c: real)
    requires a <= b && c > 0.0
    ensures a * c <= b * c
  {
  }

  lemma MulStrict(a: real, b: real, c: real)
    requires a < b && c > 0.0
    ensures a * c < b * c
  {
  }

  lemma IntMulMonotone(a: int, b: int, c: int)
    requires a <= b && c > 0
    ensures a * c <= b * c
  {
  }
}

=== FILE: fees.dfy ===
/** Fee collection: the collect-fee command. */
module Fees {
  import opened Optional
  import opened JsValues
  import opened Records
  import opened ActivityLog

  /** students.find(s => s.id === id): the first student with that id; a
      student without an id never matches the id of the fee form. */
  function FindStudent(students: seq<Student>, id: string): (r: Option<Student>)
    ensures r.None? <==> forall i :: 0 <= i < |students| ==> students[i].id != Some(id)
    ensures r.Some? ==> exists i :: 0 <= i < |students| && students[i] == r.value
                         && forall j :: 0 <= j < i ==> students[j].id != Some(id)
    ensures r.Some? ==> r.value.id == Some(id)
  {
    if |students| == 0 then None
    else if students[0].id == Some(id) then Some(students[0])
    else
      var r := FindStudent(students[1..], id);
      assert r.Some? ==> exists i :: 0 < i < |students| && students[i] == r.value
                           && forall j :: 0 <= j < i ==> students[j].id != Some(id) by {
        if r.Some? {
          var k :| 0 <= k < |students| - 1 && students[1..][k] == r.value
                   && forall j :: 0 <= j < k ==> students[1..][j].id != Some(id);
          assert students[k + 1] == r.value;
          assert forall j :: 0 <= j < k + 1 ==> students[j].id != Some(id) by {
            forall j | 0 < j < k + 1 ensures students[j].id != Some(id) {
              assert students[j] == students[1..][j - 1];
            }
          }
        }
      }
      r
  }

  const UnknownStudent := "Unknown"

  /** The name snapshot a fee record takes: the student's name, or "Unknown"
      when no student has the id or the name is empty. */
  function StudentNameFor(students: seq<Student>, id: string): string {
    match FindStudent(students, id)
    case Some(s) => if s.name != "" then s.name else UnknownStudent
    case None => UnknownStudent
  }

  /** The fields saveFee insists on: a student id, a fee type and an amount
      that is neither NaN nor zero. */
  predicate Complete(f: FeeRecord) {
    f.studentId != "" && f.feeType != "" && !Falsy(f.amount)
  }

  predicate AllComplete(fees: seq<FeeRecord>) {
    forall i :: 0 <= i < |fees| ==> Complete(fees[i])
  }

  /** saveFee: reject a form without student or fee type, or whose amount
      parses to NaN or zero; otherwise append a paid fee record and log it. */
  function SaveFee(st: Store, form: FeeForm, receiptNo: string, record: Stamp, log: Stamp): (r: Reply)
    ensures r.outcome == Done <==>
      form.studentId != "" && form.feeType != "" && !Falsy(ParseFloat(form.amount))
    ensures r.outcome != Done ==> r == Reply(st, Rejected(MissingRequiredFields))
    ensures r.outcome == Done ==>
      && |r.store.fees| == |st.fees| + 1
      && r.store.fees[..|st.fees|] == st.fees
      && r.store.fees[|st.fees|]
         == FeeRecord(record.id, receiptNo, form.studentId, StudentNameFor(st.students, form.studentId),
                      form.feeType, ParseFloat(form.amount), form.date, form.paymentMethod,
                      form.remarks, Paid, Admin, record.now)
      && r.store.students == st.students
      && r.store.staff == st.staff
      && r.store.attendance == st.attendance
      && r.store.activities
         == AddActivity(st.activities,
                        Entry(CollectedFee(ParseFloat(form.amount), r.store.fees[|st.fees|].studentName), log))
  {
    var fee := FeeRecord(record.id, receiptNo, form.studentId, StudentNameFor(st.students, form.studentId),
                         form.feeType, ParseFloat(form.amount), form.date, form.paymentMethod,
                         form.remarks, Paid, Admin, record.now);
    if !Complete(fee) then Reply(st, Rejected(MissingRequiredFields))
    else Reply(Logged(st.(fees := st.fees + [fee]), CollectedFee(fee.amount, fee.studentName), log), Done)
  }

  /** Collecting only ever adds fee records that have every required field. */
  lemma SaveFeeKeepsComplete(st: Store, form: FeeForm, receiptNo: string, record: Stamp, log: Stamp)
    requires AllComplete(st.fees)
    ensures AllComplete(SaveFee(st, form, receiptNo, record, log).store.fees)
  {
    var r := SaveFee(st, form, receiptNo, record, log);
    if r.outcome == Done {
      var n := |st.fees|;
      forall i | 0 <= i < |r.store.fees| ensures Complete(r.store.fees[i]) {
        if i < n { assert r.store.fees[i] == r.store.fees[..n][i]; }
      }
    }
  }

  /** The amount check only refuses NaN and zero: a negative amount is
      collected as it stands. */
  lemma NegativeAmountIsCollected(st: Store, form: FeeForm, n: nat, receiptNo: string, record: Stamp, log: Stamp)
    requires n > 0 && form.studentId != "" && form.feeType != ""
    requires (n as real) < Overflow
    requires form.amount == "-" + NatToString(n)
    ensures SaveFee(st, form, receiptNo, record, log).outcome == Done
    ensures SaveFee(st, form, receiptNo, record, log).store.fees[|st.fees|].amount == Finite(-(n as real))
  {
    ParseFloatOfNegatedNatToString(n);
  }

  /** The amount text must parse: an amount that is empty or "0" is refused. */
  lemma EmptyOrZeroAmountIsRefused(st: Store, form: FeeForm, receiptNo: string, record: Stamp, log: Stamp)
    requires form.amount == "" || form.amount == "0"
    ensures SaveFee(st, form, receiptNo, record, log) == Reply(st, Rejected(MissingRequiredFields))
  {
    if form.amount == "0" {
      ParseFloatOfNatToString(0);
    }
  }

  /** A fee for an id no student has is still collected, under "Unknown". */
  lemma UnknownStudentFeeIsCollected(st: Store, form: FeeForm, receiptNo: string, record: Stamp, log: Stamp)
    requires forall i :: 0 <= i < |st.students| ==> st.students[i].id != Some(form.studentId)
    requires form.studentId != "" && form.feeType != "" && !Falsy(ParseFloat(form.amount))
    ensures SaveFee(st, form, receiptNo, record, log).store.fees[|st.fees|].studentName == UnknownStudent
  {
  }

  /** An amount too small for a double, such as "1e-400", parses to zero and
      is refused like "0". */
  lemma TinyAmountIsRefused(st: Store, form: FeeForm, k: nat, receiptNo: string, record: Stamp, log: Stamp)
    requires 3 * k >= 1075
    requires form.amount == "1e-" + NatToString(k)
    ensures SaveFee(st, form, receiptNo, record, log) == Reply(st, Rejected(MissingRequiredFields))
  {
    TinyLiteralIsZero(k);
  }

  /** An amount too large for a double, such as "1e400", is collected as
      Infinity. */
  lemma HugeAmountIsInfinite(st: Store, form: FeeForm, k: nat, receiptNo: string, record: Stamp, log: Stamp)
    requires 3 * k >= 1024 && form.studentId != "" && form.feeType != ""
    requires form.amount == "1e" + NatToString(k)
    ensures SaveFee(st, form, receiptNo, record, log).outcome == Done
    ensures SaveFee(st, form, receiptNo, record, log).store.fees[|st.fees|].amount == Infinity(false)
  {
    HugeLiteralIsInfinity(k);
  }
}

=== FILE: js_values.dfy ===
/** JavaScript's string/number conversions as the dashboard relies on them:
    parseInt (roll numbers), parseFloat (fee amounts) and the decimal
    rendering of the counts in "N minutes ago". */
module JsValues {
  import opened Optional

  /** A JavaScript number as parseFloat can produce it. A finite value is
      kept exact apart from the two roundings ToDouble models. */
  datatype Number = NaN | Finite(value: real) | Infinity(negative: bool)

  /** JavaScript truthiness of a number: NaN and (signed) zero are falsy. */
  predicate Falsy(n: Number) {
    n.NaN? || n == Finite(0.0)
  }

  function Pow2(n: nat): (r: nat)
    ensures r >= 1
  {
    if n == 0 then 1 else 2 * Pow2(n - 1)
  }

  function Pow10(n: nat): (r: nat)
    ensures r >= 1
  {
    if n == 0 then 1 else 10 * Pow10(n - 1)
  }

  const TwoTo16: nat := 0x1_0000
  const TwoTo32: nat := 0x1_0000_0000
  const TwoTo64: nat := 0x1_0000_0000_0000_0000
  const TwoTo128: nat := 0x1_0000_0000_0000_0000_0000_0000_0000_0000
  const TwoTo256: nat := 0x1_0000_0000_0000_0000_0000_0000_0000_0000_0000_0000_0000_0000_0000_0000_0000_0000
  const TwoTo512: nat := 0x1_0000_0000_0000_0000_0000_0000_0000_0000_0000_0000_0000_0000_0000_0000_0000_0000_0000_0000_0000_0000_0000_0000_0000_0000_0000_0000_0000_0000_0000_0000_0000_0000
  const TwoTo1024: nat := 0x1_0000_0000_0000_0000_0000_0000_0000_0000_0000_0000_0000_0000_0000_0000_0000_0000_0000_0000_0000_0000_0000_0000_0000_0000_0000_0000_0000_0000_0000_0000_0000_0000_0000_0000_0000_0000_0000_0000_0000_0000_0000_0000_0000_0000_0000_0000_0000_0000_0000_0000_0000_0000_0000_0000_0000_0000_0000_0000_0000_0000_0000_0000_0000_0000
  const TwoTo1075: nat := 0x8_0000_0000_0000_0000_0000_0000_0000_0000_0000_0000_0000_0000_0000_0000_0000_0000_0000_0000_0000_0000_0000_0000_0000_0000_0000_0000_0000_0000_0000_0000_0000_0000_0000_0000_0000_0000_0000_0000_0000_0000_0000_0000_0000_0000_0000_0000_0000_0000_0000_0000_0000_0000_0000_0000_0000_0000_0000_0000_0000_0000_0000_0000_0000_0000_0000_0000_0000

  /** 2^-1075 is half the smallest positive double: a value of at most that
      size rounds to zero (the tie goes to the even neighbour, zero). */
  const Underflow: real := 1.0 / TwoTo1075 as real

  /** 2^1024 - 2^970 lies half an ulp above the largest finite double: a
      value of at least that size rounds to Infinity. */
  const Overflow: real := 0xFFFF_FFFF_FFFF_FC00_0000_0000_0000_0000_0000_0000_0000_0000_0000_0000_0000_0000_0000_0000_0000_0000_0000_0000_0000_0000_0000_0000_0000_0000_0000_0000_0000_0000_0000_0000_0000_0000_0000_0000_0000_0000_0000_0000_0000_0000_0000_0000_0000_0000_0000_0000_0000_0000_0000_0000_0000_0000_0000_0000_0000_0000_0000_0000_0000_0000 as real

  /** Rounding an exact decimal value to a double, as far as it decides
      zero and infinity; every other value is kept exact. */
  function ToDouble(v: real): (n: Number)
    ensures n.NaN? == false
    ensures n == Finite(0.0) <==> -Underflow <= v <= Underflow
    ensures n.Infinity? <==> v >= Overflow || v <= -Overflow
    ensures n.Infinity? ==> (n.negative <==> v < 0.0)
    ensures n.Finite? && n != Finite(0.0) ==> n.value == v
  {
    if v >= Overflow then Infinity(false)
    else if v <= -Overflow then Infinity(true)
    else if -Underflow <= v <= Underflow then Finite(0.0)
    else Finite(v)
  }

  /** StrWhiteSpaceChar of ECMAScript: TAB, VT, FF, ZWNBSP, every Unicode
      space separator (category Zs), and the line terminators LF, CR, LS, PS. */
  predicate IsStrWhiteSpace(c: char) {
    var u := c as int;
    || u == 0x09 || u == 0x0B || u == 0x0C || u == 0xFEFF
    || u == 0x20 || u == 0xA0 || u == 0x1680 || 0x2000 <= u <= 0x200A
    || u == 0x202F || u == 0x205F || u == 0x3000
    || u == 0x0A || u == 0x0D || u == 0x2028 || u == 0x2029
  }

  /** The position of the first character at or after lo that is not white
      space: the text is read from there on. */
  function SpaceEnd(s: string, lo: nat): (e: nat)
    requires lo <= |s|
    ensures lo <= e <= |s|
    ensures e == |s| || !IsStrWhiteSpace(s[e])
    decreases |s| - lo
  {
    if lo < |s| && IsStrWhiteSpace(s[lo]) then SpaceEnd(s, lo + 1) else lo
  }

  /** The value of c as a base-36 digit ('0'-'9', then letters of either case),
      or 36 when c is not a digit in any radix. */
  function DigitValue(c: char): nat {
    if '0' <= c <= '9' then c as int - '0' as int
    else if 'a' <= c <= 'z' then c as int - 'a' as int + 10
    else if 'A' <= c <= 'Z' then c as int - 'A' as int + 10
    else 36
  }

  predicate IsDigit(c: char, radix: nat) {
    DigitValue(c) < radix
  }

  /** The end of the longest run of radix digits that starts at lo. */
  function DigitEnd(s: string, lo: nat, radix: nat): (e: nat)
    requires lo <= |s|
    ensures lo <= e <= |s|
    ensures e == |s| || !IsDigit(s[e], radix)
    decreases |s| - lo
  {
    if lo < |s| && IsDigit(s[lo], radix) then DigitEnd(s, lo + 1, radix) else lo
  }

  /** Positional value of the decimal digits s[lo..hi], most significant
      first. */
  function DecimalValue(s: string, lo: nat, hi: nat): nat
    requires lo <= hi <= |s|
    decreases hi - lo
  {
    if hi == lo then 0 else DecimalValue(s, lo, hi - 1) * 10 + DigitValue(s[hi - 1])
  }

  /** Positional value of the hexadecimal digits s[lo..hi], most
      significant first. */
  function HexValue(s: string, lo: nat, hi: nat): nat
    requires lo <= hi <= |s|
    decreases hi - lo
  {
    if hi == lo then 0 else HexValue(s, lo, hi - 1) * 16 + DigitValue(s[hi - 1])
  }

  predicate IsSign(c: char) {
    c == '-' || c == '+'
  }

  /** The position after one optional sign character at p. */
  function SignEnd(s: string, p: nat): (i: nat)
    requires p <= |s|
    ensures i == p || (p < |s| && IsSign(s[p]) && i == p + 1)
    ensures i <= |s|
  {
    if p < |s| && IsSign(s[p]) then p + 1 else p
  }

  predicate HasHexPrefix(s: string, i: nat) {
    i + 1 < |s| && s[i] == '0' && (s[i + 1] == 'x' || s[i + 1] == 'X')
  }

  /** The digits parseInt reads from position i on: base 16 after a "0x" or
      "0X" prefix, base 10 otherwise, up to the first non-digit; None when
      there is no digit. */
  function IntDigits(s: string, i: nat): Option<nat>
    requires i <= |s|
  {
    if HasHexPrefix(s, i) then
      var e := DigitEnd(s, i + 2, 16);
      if e == i + 2 then None else Some(HexValue(s, i + 2, e))
    else
      var e := DigitEnd(s, i, 10);
      if e == i then None else Some(DecimalValue(s, i, e))
  }

  /** A sign applied to the digits read after it. */
  function ApplySign(negative: bool, digits: Option<nat>): Option<int> {
    match digits
    case None => None
    case Some(m) => Some(if negative then -(m as int) else m)
  }

  /** parseInt(s) with no radix argument, as section 19.2.5 of ECMA-262 defines
      it: skip leading white space, take an optional sign, then read the
      digits. None is NaN (no digit at all); a negative zero is read as 0. */
  function ParseInt(s: string): Option<int> {
    var p := SpaceEnd(s, 0);
    ApplySign(p < |s| && s[p] == '-', IntDigits(s, SignEnd(s, p)))
  }

  /** m scaled by ten to the power e, one decimal place at a time. */
  function Scale(m: real, e: int): real
    decreases if e >= 0 then e else -e
  {
    if e == 0 then m else if e > 0 then Scale(m * 10.0, e - 1) else Scale(m / 10.0, e + 1)
  }

  /** Scaling up by k places multiplies by ten to the k. */
  lemma {:induction false} ScaleUp(m: real, k: nat)
    ensures Scale(m, k) == m * Pow10(k) as real
    decreases k
  {
    if k > 0 {
      ScaleUp(m * 10.0, k - 1);
      assert Pow10(k) as real == 10.0 * Pow10(k - 1) as real;
    }
  }

  /** Scaling down by k places divides by ten to the k. */
  lemma {:induction false} ScaleDown(m: real, k: nat)
    ensures Scale(m, -(k as int)) == m / Pow10(k) as real
    decreases k
  {
    if k > 0 {
      ScaleDown(m / 10.0, k - 1);
      var p := Pow10(k - 1) as real;
      assert Pow10(k) as real == 10.0 * p;
      DivDiv(m, 10.0, p);
    } else {
      assert Pow10(0) == 1;
    }
  }

  /** Dividing by a and then by b is dividing by a * b. */
  lemma DivDiv(m: real, a: real, b: real)
    requires a > 0.0 && b > 0.0
    ensures (m / a) / b == m / (a * b)
  {
    var q := m / (a * b);
    assert q * (a * b) == m;
    assert (q * b) * a == m;
    assert m / a == q * b;
  }

  /** The exponent denoted by an ExponentPart ("e" or "E", an optional sign,
      at least one digit) at position i; 0 when there is none there. */
  function ExponentPart(s: string, i: nat): int
    requires i <= |s|
  {
    if i == |s| || (s[i] != 'e' && s[i] != 'E') then 0
    else
      var signed := i + 1 < |s| && IsSign(s[i + 1]);
      var lo := if signed then i + 2 else i + 1;
      var e := DigitEnd(s, lo, 10);
      if e == lo then 0
      else if signed && s[i + 1] == '-' then 0 - DecimalValue(s, lo, e)
      else DecimalValue(s, lo, e)
  }

  predicate StartsWithInfinity(s: string, i: nat) {
    i + 8 <= |s| && s[i..i + 8] == "Infinity"
  }

  /** The unsigned StrDecimalLiteral at position i: "Infinity", or digits
      with an optional fraction and an optional exponent, rounded to a
      double; NaN when there is neither. */
  function DecimalPrefix(s: string, i: nat): Number
    requires i <= |s|
  {
    if StartsWithInfinity(s, i) then Infinity(false)
    else
      var intEnd := DigitEnd(s, i, 10);
      var dot := intEnd < |s| && s[intEnd] == '.';
      var fracEnd := if dot then DigitEnd(s, intEnd + 1, 10) else intEnd;
      var f := if dot then fracEnd - (intEnd + 1) else 0;
      if intEnd == i && f == 0 then NaN
      else
        var fraction := if dot then Scale(DecimalValue(s, intEnd + 1, fracEnd) as real, -f) else 0.0;
        var mantissa := DecimalValue(s, i, intEnd) as real + fraction;
        ToDouble(Scale(mantissa, ExponentPart(s, fracEnd)))
  }

  function Negate(n: Number): Number {
    match n
    case NaN => NaN
    case Finite(v) => Finite(-v)
    case Infinity(neg) => Infinity(!neg)
  }

  /** The global parseFloat(s) as section 19.2.4 of ECMA-262 defines it: skip
      leading white space, take an optional sign, and read the longest prefix
      that is a StrDecimalLiteral. */
  function ParseFloat(s: string): Number {
    var p := SpaceEnd(s, 0);
    var n := DecimalPrefix(s, SignEnd(s, p));
    if p < |s| && s[p] == '-' then Negate(n) else n
  }

  function DigitChar(d: nat): (c: char)
    requires d < 10
    ensures '0' <= c <= '9' && DigitValue(c) == d
  {
    ('0' as int + d) as char
  }

  /** The decimal text JavaScript gives a non-negative integer below 10^21. */
  function NatToString(n: nat): (s: string)
    ensures |s| > 0
    ensures '0' <= s[0] <= '9' && (s[0] == '0' <==> n == 0)
    ensures n == 0 ==> s == "0"
  {
    if n < 10 then [DigitChar(n)] else NatToString(n / 10) + [DigitChar(n % 10)]
  }

  /** The value of a digit range depends only on the characters in it,
      wherever the range sits. */
  lemma {:induction false} DecimalValueShift(s: string, t: string, off: nat, lo: nat, hi: nat)
    requires lo <= hi <= |t| && off + hi <= |s|
    requires forall k :: lo <= k < hi ==> s[off + k] == t[k]
    ensures DecimalValue(s, off + lo, off + hi) == DecimalValue(t, lo, hi)
    decreases hi - lo
  {
    if hi > lo {
      DecimalValueShift(s, t, off, lo, hi - 1);
      assert s[off + hi - 1] == t[hi - 1];
    }
  }

  lemma {:induction false} DecimalValueOfNatToString(n: nat)
    ensures DecimalValue(NatToString(n), 0, |NatToString(n)|) == n
  {
    if n >= 10 {
      var p := NatToString(n / 10);
      var s := NatToString(n);
      assert s == p + [DigitChar(n % 10)];
      DecimalValueOfNatToString(n / 10);
      DecimalValueShift(s, p, 0, 0, |p|);
      assert s[|s| - 1] == DigitChar(n % 10);
    }
  }

  /** Every character DigitEnd passes over is a digit. */
  lemma {:induction false} DigitEndSkipsDigits(s: string, lo: nat, radix: nat)
    requires lo <= |s|
    ensures forall k :: lo <= k < DigitEnd(s, lo, radix) ==> IsDigit(s[k], radix)
    decreases |s| - lo
  {
    if lo < |s| && IsDigit(s[lo], radix) {
      DigitEndSkipsDigits(s, lo + 1, radix);
    }
  }

  /** Every character SpaceEnd passes over is white space. */
  lemma {:induction false} SpaceEndSkipsSpace(s: string, lo: nat)
    requires lo <= |s|
    ensures forall k :: lo <= k < SpaceEnd(s, lo) ==> IsStrWhiteSpace(s[k])
    decreases |s| - lo
  {
    if lo < |s| && IsStrWhiteSpace(s[lo]) {
      SpaceEndSkipsSpace(s, lo + 1);
    }
  }

  /** A decimal rendering is all digits. */
  lemma {:induction false} NatToStringDigits(n: nat)
    ensures forall i :: 0 <= i < |NatToString(n)| ==> '0' <= NatToString(n)[i] <= '9'
  {
    if n >= 10 {
      NatToStringDigits(n / 10);
      var p := NatToString(n / 10);
      assert NatToString(n) == p + [DigitChar(n % 10)];
    }
  }

  /** A run of radix digits from lo to hi, followed by the end of the text
      or a non-digit, is exactly the run DigitEnd finds. */
  lemma {:induction false} DigitEndAt(s: string, lo: nat, hi: nat, radix: nat)
    requires lo <= hi <= |s|
    requires forall k :: lo <= k < hi ==> IsDigit(s[k], radix)
    requires hi == |s| || !IsDigit(s[hi], radix)
    ensures DigitEnd(s, lo, radix) == hi
    decreases hi - lo
  {
    if lo < hi {
      DigitEndAt(s, lo + 1, hi, radix);
    }
  }

  /** Where the characters of pre + p + rest come from. */
  lemma {:induction false} ConcatAt(pre: string, p: string, rest: string)
    ensures forall k :: 0 <= k < |p| ==> (pre + p + rest)[|pre| + k] == p[k]
    ensures |rest| > 0 ==> (pre + p + rest)[|pre| + |p|] == rest[0]
  {
  }

  /** Decimal digits p copied into s at lo, followed by the end of s or a
      non-digit: DigitEnd stops right after them and they have p's value. */
  lemma {:induction false} DigitsAt(s: string, lo: nat, p: string)
    requires lo + |p| <= |s|
    requires forall k :: 0 <= k < |p| ==> s[lo + k] == p[k]
    requires forall k :: 0 <= k < |p| ==> '0' <= p[k] <= '9'
    requires lo + |p| == |s| || !IsDigit(s[lo + |p|], 10)
    ensures DigitEnd(s, lo, 10) == lo + |p|
    ensures DecimalValue(s, lo, lo + |p|) == DecimalValue(p, 0, |p|)
  {
    assert forall k :: lo <= k < lo + |p| ==> IsDigit(s[k], 10) by {
      forall k | lo <= k < lo + |p| ensures IsDigit(s[k], 10) {
        assert s[lo + (k - lo)] == p[k - lo];
      }
    }
    DigitEndAt(s, lo, lo + |p|, 10);
    DecimalValueShift(s, p, lo, 0, |p|);
  }

  /** Decimal digits p placed after pre and followed by a non-digit or by
      nothing: DigitEnd stops right after them and they have p's value. */
  lemma {:induction false} DigitsBetween(pre: string, p: string, rest: string)
    requires forall k :: 0 <= k < |p| ==> '0' <= p[k] <= '9'
    requires |rest| == 0 || !IsDigit(rest[0], 10)
    ensures var s := pre + p + rest;
            DigitEnd(s, |pre|, 10) == |pre| + |p|
            && DecimalValue(s, |pre|, |pre| + |p|) == DecimalValue(p, 0, |p|)
  {
    ConcatAt(pre, p, rest);
    DigitsAt(pre + p + rest, |pre|, p);
  }

  /** The digits of a decimal rendering placed after pre and followed by a
      non-digit or by nothing read back as the number. */
  lemma {:induction false} DigitsOfNatToString(pre: string, n: nat, rest: string)
    requires |rest| == 0 || !IsDigit(rest[0], 10)
    ensures var s := pre + NatToString(n) + rest;
            var hi := |pre| + |NatToString(n)|;
            hi <= |s| && DigitEnd(s, |pre|, 10) == hi && DecimalValue(s, |pre|, hi) == n
  {
    NatToStringDigits(n);
    DigitsBetween(pre, NatToString(n), rest);
    DecimalValueOfNatToString(n);
  }

  /** parseInt reads back the decimal rendering of a natural number, whatever
      non-digit text follows it. */
  lemma {:induction false} ParseIntOfNatToString(n: nat, rest: string)
    requires |rest| == 0 || !IsDigit(rest[0], 10)
    requires n > 0 || |rest| == 0 || (rest[0] != 'x' && rest[0] != 'X')
    ensures ParseInt(NatToString(n) + rest) == Some(n)
  {
    var p := NatToString(n);
    var s := p + rest;
    assert s[0] == p[0];
    assert SpaceEnd(s, 0) == 0;
    assert SignEnd(s, 0) == 0;
    assert !HasHexPrefix(s, 0) by {
      if n == 0 && |s| >= 2 { assert s[1] == rest[0]; }
    }
    DigitsOfNatToString("", n, rest);
    assert "" + p + rest == s;
    assert IntDigits(s, 0) == Some(n);
  }

  /** A text without any decimal digit parses to NaN. */
  lemma {:induction false} ParseIntWithoutDigits(s: string)
    requires forall i :: 0 <= i < |s| ==> !('0' <= s[i] <= '9')
    ensures ParseInt(s) == None
  {
    var i := SignEnd(s, SpaceEnd(s, 0));
    assert !HasHexPrefix(s, i);
    assert DigitEnd(s, i, 10) == i by {
      if i < |s| { assert !IsDigit(s[i], 10); }
    }
    assert IntDigits(s, i) == None;
  }

  /** The decimal rendering of a natural number after pre, read as a
      decimal literal, is that number rounded to a double. */
  lemma {:induction false} DecimalPrefixOfNatToString(pre: string, n: nat)
    ensures DecimalPrefix(pre + NatToString(n), |pre|) == ToDouble(n as real)
  {
    var p := NatToString(n);
    var s := pre + p;
    assert s[|pre|] == p[0];
    assert !StartsWithInfinity(s, |pre|) by {
      if |pre| + 8 <= |s| { assert s[|pre|..|pre| + 8][0] == s[|pre|]; }
    }
    DigitsOfNatToString(pre, n, "");
    assert pre + p + "" == s;
    assert ExponentPart(s, |s|) == 0;
    assert Scale(n as real + 0.0, 0) == n as real;
  }

  /** Text that starts with a digit is read by parseFloat from its first
      character, unsigned. */
  lemma {:induction false} ParseFloatUnsigned(s: string)
    requires |s| > 0 && '0' <= s[0] <= '9'
    ensures ParseFloat(s) == DecimalPrefix(s, 0)
  {
    assert SpaceEnd(s, 0) == 0;
    assert SignEnd(s, 0) == 0;
  }

  /** Text that starts with a minus sign is read by parseFloat as the
      negation of the literal after the sign. */
  lemma {:induction false} ParseFloatNegative(s: string)
    requires |s| > 0 && s[0] == '-'
    ensures ParseFloat(s) == Negate(DecimalPrefix(s, 1))
  {
    assert SpaceEnd(s, 0) == 0;
    assert SignEnd(s, 0) == 1;
  }

  /** parseFloat reads back the decimal rendering of a natural number below
      the overflow threshold. */
  lemma {:induction false} ParseFloatOfNatToString(n: nat)
    requires (n as real) < Overflow
    ensures ParseFloat(NatToString(n)) == Finite(n as real)
  {
    var p := NatToString(n);
    assert "" + p == p;
    ParseFloatUnsigned(p);
    DecimalPrefixOfNatToString("", n);
    ToDoubleOfNat(n);
  }

  /** parseFloat reads back a minus sign followed by the decimal rendering of
      a natural number below the overflow threshold as the negated number. */
  lemma {:induction false} ParseFloatOfNegatedNatToString(n: nat)
    requires (n as real) < Overflow
    ensures ParseFloat("-" + NatToString(n)) == Finite(-(n as real))
  {
    var s := "-" + NatToString(n);
    ParseFloatNegative(s);
    DecimalPrefixOfNatToString("-", n);
    ToDoubleOfNat(n);
  }

  /** A natural number below the overflow threshold is kept exact. */
  lemma {:induction false} ToDoubleOfNat(n: nat)
    requires (n as real) < Overflow
    ensures ToDouble(n as real) == Finite(n as real)
  {
  }

  lemma {:induction false} Pow2Monotone(a: nat, b: nat)
    requires a <= b
    ensures Pow2(a) <= Pow2(b)
    decreases b - a
  {
    if a < b {
      Pow2Monotone(a, b - 1);
    }
  }

  lemma {:induction false} Pow2Add(a: nat, b: nat)
    ensures Pow2(a + b) == Pow2(a) * Pow2(b)
    decreases b
  {
    if b > 0 {
      Pow2Add(a, b - 1);
      assert Pow2(a + b) == 2 * Pow2(a + (b - 1));
    }
  }

  /** The two thresholds in terms of Pow2, by repeated squaring. */
  lemma {:induction false} Pow2Thresholds()
    ensures Pow2(1024) == TwoTo1024
    ensures Pow2(1075) == TwoTo1075
  {
    assert Pow2(1) == 2;
    Pow2Add(1, 1);
    Pow2Add(2, 2);
    Pow2Add(4, 4);
    assert Pow2(8) == 256;
    Pow2Add(8, 8);
    assert Pow2(16) == TwoTo16;
    Pow2Add(16, 16);
    assert Pow2(32) == TwoTo32;
    Pow2Add(32, 32);
    assert Pow2(64) == TwoTo64;
    Pow2Add(64, 64);
    assert Pow2(128) == TwoTo128;
    Pow2Add(128, 128);
    assert Pow2(256) == TwoTo256;
    Pow2Add(256, 256);
    assert Pow2(512) == TwoTo512;
    Pow2Add(512, 512);
    assert Pow2(1024) == TwoTo1024;
    Pow2Add(1024, 32);
    Pow2Add(1056, 16);
    Pow2Add(1072, 3);
    assert Pow2(3) == 8;
  }

  /** 2^(3k) = 8^k stays below 10^k. */
  lemma {:induction false} Pow2BelowPow10(k: nat)
    ensures Pow2(3 * k) <= Pow10(k)
  {
    if k > 0 {
      Pow2BelowPow10(k - 1);
      var m := 3 * (k - 1);
      assert Pow2(m + 3) == 2 * Pow2(m + 2) == 4 * Pow2(m + 1) == 8 * Pow2(m);
    }
  }

  /** A literal that starts "1e" has mantissa one. */
  lemma {:induction false} LeadingOneThenE(s: string)
    requires |s| >= 2 && s[0] == '1' && s[1] == 'e'
    ensures DecimalPrefix(s, 0) == ToDouble(Scale(1.0, ExponentPart(s, 1)))
  {
    assert !StartsWithInfinity(s, 0) by {
      if 8 <= |s| { assert s[0..8][0] == '1'; }
    }
    DigitEndAt(s, 0, 1, 10);
    assert DecimalValue(s, 0, 1) == 1;
  }

  /** "1e" followed by the digits of k is one times ten to the k. */
  lemma {:induction false} PositiveExponentLiteral(k: nat)
    ensures DecimalPrefix("1e" + NatToString(k), 0) == ToDouble(Pow10(k) as real)
  {
    var s := "1e" + NatToString(k);
    assert s[0] == '1' && s[1] == 'e' && s[2] == NatToString(k)[0];
    LeadingOneThenE(s);
    assert ExponentPart(s, 1) == k by {
      DigitsOfNatToString("1e", k, "");
      assert "1e" + NatToString(k) + "" == s;
    }
    assert Scale(1.0, k) == Pow10(k) as real by {
      ScaleUp(1.0, k);
    }
  }

  /** "1e-" followed by the digits of k is one over ten to the k. */
  lemma {:induction false} NegativeExponentLiteral(k: nat)
    ensures DecimalPrefix("1e-" + NatToString(k), 0) == ToDouble(1.0 / Pow10(k) as real)
  {
    var s := "1e-" + NatToString(k);
    assert s[0] == '1' && s[1] == 'e' && s[2] == '-';
    LeadingOneThenE(s);
    DigitsOfNatToString("1e-", k, "");
    assert "1e-" + NatToString(k) + "" == s;
    assert ExponentPart(s, 1) == -(k as int);
    ScaleDown(1.0, k);
  }

  /** One over ten to the k, for 3k at least 1075, is positive but at most
      half the smallest positive double. */
  lemma {:induction false} TinyReciprocal(k: nat)
    requires 3 * k >= 1075
    ensures 0.0 < 1.0 / Pow10(k) as real <= Underflow
  {
    Pow2Thresholds();
    Pow2Monotone(1075, 3 * k);
    Pow2BelowPow10(k);
    SmallerReciprocal(TwoTo1075 as real, Pow10(k) as real);
  }

  /** Ten to the k, for 3k at least 1024, is past the overflow threshold. */
  lemma {:induction false} HugePower(k: nat)
    requires 3 * k >= 1024
    ensures Pow10(k) as real >= Overflow
  {
    Pow2Thresholds();
    Pow2Monotone(1024, 3 * k);
    Pow2BelowPow10(k);
  }

  /** A literal below half the smallest double, such as "1e-400", parses to
      zero. */
  lemma {:induction false} TinyLiteralIsZero(k: nat)
    requires 3 * k >= 1075
    ensures ParseFloat("1e-" + NatToString(k)) == Finite(0.0)
  {
    var s := "1e-" + NatToString(k);
    ParseFloatUnsigned(s);
    NegativeExponentLiteral(k);
    TinyReciprocal(k);
  }

  /** A literal at or above the overflow threshold, such as "1e400", parses
      to Infinity. */
  lemma {:induction false} HugeLiteralIsInfinity(k: nat)
    requires 3 * k >= 1024
    ensures ParseFloat("1e" + NatToString(k)) == Infinity(false)
  {
    var s := "1e" + NatToString(k);
    ParseFloatUnsigned(s);
    PositiveExponentLiteral(k);
    HugePower(k);
  }

  lemma {:induction false} SmallerReciprocal(a: real, b: real)
    requires 0.0 < a <= b
    ensures 0.0 < 1.0 / b <= 1.0 / a
  {
  }
}

=== FILE: optional.dfy ===
/** An optional value: a field the dashboard may leave undefined, or a
    lookup or conversion that may find nothing. */
module Optional {
  datatype Option<+T> = None | Some(value: T)
}

=== FILE: records.dfy ===
/** The dashboard's records and the in-memory store that owns them. Every
    collection is a flat sequence in insertion order; commands replace the
    whole store value instead of mutating globals. */
module Records {
  import opened Optional
  import opened JsValues

  datatype Status = Active | Inactive

  /** id, status and dateAdded are None on a record that updateStudent
      created at the index one past the end, where there was no student to
      copy them from. */
  datatype Student = Student(
    id: Option<string>,
    roll: string,
    name: string,
    className: string,
    dob: string,
    contact: string,
    email: string,
    address: string,
    status: Option<Status>,
    dateAdded: Option<string>)

  /** The values of the student form's input fields. */
  datatype StudentForm = StudentForm(
    roll: string,
    name: string,
    className: string,
    dob: string,
    contact: string,
    email: string,
    address: string)

  datatype StaffMember = StaffMember(
    id: string,
    name: string,
    designation: string,
    subject: string,
    contact: string,
    email: string,
    joinDate: string,
    status: Status,
    dateAdded: string)

  /** The values of the staff form's input fields. */
  datatype StaffForm = StaffForm(
    name: string,
    designation: string,
    subject: string,
    contact: string,
    email: string,
    joinDate: string)

  /** The four options of the attendance table's status selector. */
  datatype AttendanceStatus = Present | Absent | Late | Excused

  /** studentName and studentClass are snapshots taken when the record is
      created; later edits of the student do not reach them. studentId is
      None when the student had no id. */
  datatype AttendanceRecord = AttendanceRecord(
    id: string,
    studentId: Option<string>,
    studentName: string,
    studentClass: string,
    date: string,
    status: AttendanceStatus,
    remarks: string,
    markedBy: string,
    markedAt: string)

  datatype FeeStatus = Paid

  datatype FeeRecord = FeeRecord(
    id: string,
    receiptNo: string,
    studentId: string,
    studentName: string,
    feeType: string,
    amount: Number,
    date: string,
    paymentMethod: string,
    remarks: string,
    status: FeeStatus,
    collectedBy: string,
    collectedAt: string)

  /** The values of the fee form's input fields; the amount is the raw text. */
  datatype FeeForm = FeeForm(
    studentId: string,
    feeType: string,
    amount: string,
    date: string,
    paymentMethod: string,
    remarks: string)

  /** What an activity-log entry reports; its English wording is presentation. */
  datatype Event =
    | AddedStudent(name: string)
    | UpdatedStudent(name: string)
    | DeletedStudent(name: string)
    | AddedStaff(name: string)
    | MarkedAttendance
    | UpdatedAttendanceStatus(status: AttendanceStatus)
    | CollectedFee(amount: Number, studentName: string)

  datatype ActivityEntry = ActivityEntry(
    id: string,
    event: Event,
    user: string,
    timestamp: string,
    icon: string)

  /** One identifier from generateID together with the clock reading taken
      alongside it. */
  datatype Stamp = Stamp(id: string, now: string)

  /** The five collections the commands work on. */
  datatype Store = Store(
    students: seq<Student>,
    staff: seq<StaffMember>,
    attendance: seq<AttendanceRecord>,
    fees: seq<FeeRecord>,
    activities: seq<ActivityEntry>)

  datatype Reason = MissingRequiredFields | NoStudents | NoSuchIndex | NotConfirmed

  datatype Outcome = Done | Rejected(reason: Reason)

  datatype Reply = Reply(store: Store, outcome: Outcome)

  /** The fixed user every record and log entry is attributed to. */
  const Admin := "Admin"

  const HistoryIcon := "fas fa-history"
}

=== FILE: staff.dfy ===
/** Staff management: the add command. */
module StaffMembers {
  import opened Records
  import opened ActivityLog

  /** s holds the six values the staff form supplies. */
  predicate HasFormFields(s: StaffMember, form: StaffForm) {
    && s.name == form.name
    && s.designation == form.designation
    && s.subject == form.subject
    && s.contact == form.contact
    && s.email == form.email
    && s.joinDate == form.joinDate
  }

  /** The fields saveStaff insists on. */
  predicate Complete(s: StaffMember) {
    s.name != "" && s.designation != ""
  }

  predicate AllComplete(staff: seq<StaffMember>) {
    forall i :: 0 <= i < |staff| ==> Complete(staff[i])
  }

  /** saveStaff: reject a form without name or designation; otherwise append
      the new active staff member and log it. */
  function SaveStaff(st: Store, form: StaffForm, record: Stamp, log: Stamp): (r: Reply)
    ensures r.outcome == Done <==> form.name != "" && form.designation != ""
    ensures r.outcome != Done ==> r == Reply(st, Rejected(MissingRequiredFields))
    ensures r.outcome == Done ==>
      && |r.store.staff| == |st.staff| + 1
      && r.store.staff[..|st.staff|] == st.staff
      && HasFormFields(r.store.staff[|st.staff|], form)
      && r.store.staff[|st.staff|].id == record.id
      && r.store.staff[|st.staff|].status == Active
      && r.store.staff[|st.staff|].dateAdded == record.now
      && r.store.students == st.students
      && r.store.attendance == st.attendance
      && r.store.fees == st.fees
      && r.store.activities == AddActivity(st.activities, Entry(AddedStaff(form.name), log))
  {
    var member := StaffMember(record.id, form.name, form.designation, form.subject,
                              form.contact, form.email, form.joinDate, Active, record.now);
    if !Complete(member) then Reply(st, Rejected(MissingRequiredFields))
    else Reply(Logged(st.(staff := st.staff + [member]), AddedStaff(member.name), log), Done)
  }

  /** Saving only ever adds staff members that have every required field. */
  lemma SaveStaffKeepsComplete(st: Store, form: StaffForm, record: Stamp, log: Stamp)
    requires AllComplete(st.staff)
    ensures AllComplete(SaveStaff(st, form, record, log).store.staff)
  {
    var r := SaveStaff(st, form, record, log);
    if r.outcome == Done {
      var n := |st.staff|;
      forall i | 0 <= i < |r.store.staff| ensures Complete(r.store.staff[i]) {
        if i < n { assert r.store.staff[i] == r.store.staff[..n][i]; }
      }
    }
  }
}

=== FILE: students.dfy ===
/** Student management: the next-roll suggestion and the add, update and
    delete commands. */
module Students {
  import opened Optional
  import opened JsValues
  import opened Records
  import opened ActivityLog

  /** The roll suggested for the first student. */
  const FirstRoll := 1001

  /** What `parseInt(roll) || 0` yields: the parsed integer, or 0 for a roll
      that does not parse. */
  function RollValue(roll: string): int {
    match ParseInt(roll)
    case None => 0
    case Some(n) => n
  }

  lemma RollValueOfNumber(n: nat)
    ensures RollValue(NatToString(n)) == n
  {
    ParseIntOfNatToString(n, "");
    assert NatToString(n) + "" == NatToString(n);
  }

  /** A roll with no decimal digit in it counts as 0. */
  lemma RollValueWithoutDigits(roll: string)
    requires forall i :: 0 <= i < |roll| ==> !('0' <= roll[i] <= '9')
    ensures RollValue(roll) == 0
  {
    ParseIntWithoutDigits(roll);
  }

  /** The rolls of the students as `parseInt(s.roll) || 0` reads them. */
  function Rolls(students: seq<Student>): (r: seq<int>)
    ensures |r| == |students|
    ensures forall i :: 0 <= i < |students| ==> r[i] == RollValue(students[i].roll)
  {
    seq(|students|, i requires 0 <= i < |students| => RollValue(students[i].roll))
  }

  /** Math.max of a non-empty list. */
  function Max(xs: seq<int>): (m: int)
    requires |xs| > 0
    ensures forall i :: 0 <= i < |xs| ==> xs[i] <= m
    ensures exists i :: 0 <= i < |xs| && xs[i] == m
  {
    if |xs| == 1 then xs[0]
    else
      var rest := Max(xs[1..]);
      assert forall i :: 1 <= i < |xs| ==> xs[i] == xs[1..][i - 1];
      if xs[0] >= rest then xs[0] else rest
  }

  /** The roll the student form proposes: one past the largest parsed roll,
      or FirstRoll when there are no students. */
  function NextRoll(students: seq<Student>): (r: int)
    ensures |students| == 0 ==> r == FirstRoll
    ensures forall i :: 0 <= i < |students| ==> RollValue(students[i].roll) < r
    ensures |students| > 0 ==>
      exists i :: 0 <= i < |students| && r == RollValue(students[i].roll) + 1
  {
    if |students| == 0 then FirstRoll else Max(Rolls(students)) + 1
  }

  /** s holds the seven values the student form supplies. */
  predicate HasFormFields(s: Student, form: StudentForm) {
    && s.roll == form.roll
    && s.name == form.name
    && s.className == form.className
    && s.dob == form.dob
    && s.contact == form.contact
    && s.email == form.email
    && s.address == form.address
  }

  /** The form contents editStudent loads for a student. */
  function FormOf(s: Student): (form: StudentForm)
    ensures HasFormFields(s, form)
  {
    StudentForm(s.roll, s.name, s.className, s.dob, s.contact, s.email, s.address)
  }

  /** The fields saveStudent insists on. */
  predicate Complete(s: Student) {
    s.name != "" && s.roll != "" && s.className != ""
  }

  predicate AllComplete(students: seq<Student>) {
    forall i :: 0 <= i < |students| ==> Complete(students[i])
  }

  /** saveStudent: reject a form without name, roll or class; otherwise append
      the new active student and log it. */
  function SaveStudent(st: Store, form: StudentForm, record: Stamp, log: Stamp): (r: Reply)
    ensures r.outcome == Done <==> form.name != "" && form.roll != "" && form.className != ""
    ensures r.outcome != Done ==> r == Reply(st, Rejected(MissingRequiredFields))
    ensures r.outcome == Done ==>
      && |r.store.students| == |st.students| + 1
      && r.store.students[..|st.students|] == st.students
      && HasFormFields(r.store.students[|st.students|], form)
      && r.store.students[|st.students|].id == Some(record.id)
      && r.store.students[|st.students|].status == Some(Active)
      && r.store.students[|st.students|].dateAdded == Some(record.now)
      && r.store.staff == st.staff
      && r.store.attendance == st.attendance
      && r.store.fees == st.fees
      && r.store.activities == AddActivity(st.activities, Entry(AddedStudent(form.name), log))
  {
    var student := Student(Some(record.id), form.roll, form.name, form.className, form.dob,
                           form.contact, form.email, form.address, Some(Active), Some(record.now));
    if !Complete(student) then Reply(st, Rejected(MissingRequiredFields))
    else Reply(Logged(st.(students := st.students + [student]), AddedStudent(student.name), log), Done)
  }

  /** Saving only ever adds students that have every required field. */
  lemma SaveStudentKeepsComplete(st: Store, form: StudentForm, record: Stamp, log: Stamp)
    requires AllComplete(st.students)
    ensures AllComplete(SaveStudent(st, form, record, log).store.students)
  {
    var r := SaveStudent(st, form, record, log);
    if r.outcome == Done {
      var n := |st.students|;
      forall i | 0 <= i < |r.store.students| ensures Complete(r.store.students[i]) {
        if i < n { assert r.store.students[i] == r.store.students[..n][i]; }
      }
    }
  }

  /** updateStudent: overwrite the seven form fields of the student at index,
      keeping its id, status and dateAdded, without any validation. At the
      index one past the end there is no student to copy, so the assignment
      appends a record that has only the seven form fields. */
  function UpdateStudent(st: Store, index: nat, form: StudentForm, log: Stamp): (r: Reply)
    requires index <= |st.students|
    ensures r.outcome == Done
    ensures index < |st.students| ==> |r.store.students| == |st.students|
    ensures index == |st.students| ==> |r.store.students| == |st.students| + 1
    ensures forall j :: 0 <= j < |st.students| && j != index ==> r.store.students[j] == st.students[j]
    ensures HasFormFields(r.store.students[index], form)
    ensures index < |st.students| ==>
      && r.store.students[index].id == st.students[index].id
      && r.store.students[index].status == st.students[index].status
      && r.store.students[index].dateAdded == st.students[index].dateAdded
    ensures index == |st.students| ==>
      && r.store.students[index].id == None
      && r.store.students[index].status == None
      && r.store.students[index].dateAdded == None
    ensures r.store.staff == st.staff && r.store.attendance == st.attendance && r.store.fees == st.fees
    ensures r.store.activities == AddActivity(st.activities, Entry(UpdatedStudent(form.name), log))
  {
    var current := if index < |st.students| then st.students[index] else NoStudent;
    var student := current.(roll := form.roll, name := form.name, className := form.className,
                        dob := form.dob, contact := form.contact, email := form.email,
                        address := form.address);
    var students := if index < |st.students| then st.students[index := student] else st.students + [student];
    Reply(Logged(st.(students := students), UpdatedStudent(student.name), log), Done)
  }

  /** What spreading a missing array element contributes: no field at all. */
  const NoStudent := Student(None, "", "", "", "", "", "", "", None, None)

  /** An update at the index one past the end leaves a record that lacks
      the fields saveStudent insists on exactly when the form lacks them. */
  lemma UpdatePastEndAppends(st: Store, form: StudentForm, log: Stamp)
    ensures var r := UpdateStudent(st, |st.students|, form, log).store.students;
            && r[..|st.students|] == st.students
            && (Complete(r[|st.students|]) <==> form.name != "" && form.roll != "" && form.className != "")
  {
    var r := UpdateStudent(st, |st.students|, form, log).store.students;
    assert r == st.students + [r[|st.students|]];
  }

  /** Saving the form editStudent loaded, untouched, gives back the same list. */
  lemma UpdateWithLoadedFormRestores(st: Store, index: nat, log: Stamp)
    requires index < |st.students|
    ensures UpdateStudent(st, index, FormOf(st.students[index]), log).store.students == st.students
  {
    var r := UpdateStudent(st, index, FormOf(st.students[index]), log).store.students;
    assert r[index] == st.students[index];
  }

  /** After editStudent(index), the save button of the student form stays
      bound to updateStudent(index): opening the form again to add a student
      does not rebind it. A new student typed into that form then replaces
      the student at index, who keeps the old id, and no student is added,
      whatever the form holds. saveStudent would have added the student and
      would have refused a form without name, roll or class. */
  lemma AddFormAfterEditOverwrites(st: Store, index: nat, form: StudentForm, record: Stamp, log: Stamp)
    requires index < |st.students|
    ensures var r := UpdateStudent(st, index, form, log);
            && r.outcome == Done
            && |r.store.students| == |st.students|
            && r.store.students[index].id == st.students[index].id
            && (Complete(r.store.students[index]) <==> form.name != "" && form.roll != "" && form.className != "")
    ensures var saved := SaveStudent(st, form, record, log);
            && (saved.outcome == Done <==> form.name != "" && form.roll != "" && form.className != "")
            && (saved.outcome == Done ==> |saved.store.students| == |st.students| + 1)
  {
  }

  /** deleteStudent: an index past the end throws before anything happens; a
      declined confirmation changes nothing; otherwise the student at index is
      removed and its attendance and fee records stay behind. */
  function DeleteStudent(st: Store, index: nat, confirmed: bool, log: Stamp): (r: Reply)
    ensures index >= |st.students| ==> r == Reply(st, Rejected(NoSuchIndex))
    ensures index < |st.students| && !confirmed ==> r == Reply(st, Rejected(NotConfirmed))
    ensures index < |st.students| && confirmed ==>
      && r.outcome == Done
      && |r.store.students| == |st.students| - 1
      && (forall j :: 0 <= j < index ==> r.store.students[j] == st.students[j])
      && (forall j :: index <= j < |r.store.students| ==> r.store.students[j] == st.students[j + 1])
      && r.store.staff == st.staff
      && r.store.attendance == st.attendance
      && r.store.fees == st.fees
      && r.store.activities
         == AddActivity(st.activities, Entry(DeletedStudent(st.students[index].name), log))
  {
    if index >= |st.students| then Reply(st, Rejected(NoSuchIndex))
    else
      var student := st.students[index];
      if !confirmed then Reply(st, Rejected(NotConfirmed))
      else
        var rest := st.students[..index] + st.students[index + 1..];
        Reply(Logged(st.(students := rest), DeletedStudent(student.name), log), Done)
  }

  /** A confirmed delete removes exactly one occurrence of the chosen student. */
  lemma DeleteRemovesExactlyOne(st: Store, index: nat, log: Stamp)
    requires index < |st.students|
    ensures multiset(DeleteStudent(st, index, true, log).store.students) + multiset{st.students[index]}
         == multiset(st.students)
  {
    var s := st.students;
    var r := DeleteStudent(st, index, true, log).store.students;
    assert r == s[..index] + s[index + 1..];
    assert s == s[..index] + [s[index]] + s[index + 1..];
  }

  /** Deleting the student just added (confirmed) restores the list. */
  lemma DeleteUndoesSave(st: Store, form: StudentForm, record: Stamp, log: Stamp, log2: Stamp)
    requires form.name != "" && form.roll != "" && form.className != ""
    ensures DeleteStudent(SaveStudent(st, form, record, log).store, |st.students|, true, log2).store.students
         == st.students
  {
    var saved := SaveStudent(st, form, record, log).store.students;
    assert saved[..|st.students|] == st.students;
  }

  /** After the first student is saved with roll 1001, the form proposes
      1002. */
  lemma SecondStudentGetsNextRoll(form: StudentForm, record: Stamp, log: Stamp)
    requires form.roll == NatToString(FirstRoll) && form.name != "" && form.className != ""
    ensures var st := Store([], [], [], [], []);
            NextRoll(SaveStudent(st, form, record, log).store.students) == FirstRoll + 1
  {
    var students := SaveStudent(Store([], [], [], [], []), form, record, log).store.students;
    assert |students| == 1;
    RollValueOfNumber(FirstRoll);
  }
}

=== FILE: time_ago.dfy ===
/** formatTimeAgo: how long ago a log entry or the last save happened, in
    whole minutes, hours or days. */
module TimeAgo {
  import opened Optional
  import opened JsValues

  const MinuteMs := 60000
  const HourMs := 60 * MinuteMs
  const DayMs := 24 * HourMs

  /** now - past in whole milliseconds, or Invalid when the stored timestamp
      does not parse as a date and the subtraction gives NaN. */
  datatype Elapsed = Invalid | Millis(ms: int)

  /** The phrase formatTimeAgo picks; NaNDays is what NaN falls through to. */
  datatype Ago = JustNow | Minutes(n: nat) | Hours(n: nat) | Days(n: nat) | NaNDays {
    predicate Counted() {
      Minutes? || Hours? || Days?
    }
  }

  /** The minute, hour and day counts are floored quotients; Dafny's `/` by a
      positive divisor is exactly Math.floor of the quotient. */
  function Bucket(e: Elapsed): (a: Ago)
    ensures e.Invalid? <==> a.NaNDays?
    ensures e.Millis? ==> (a.JustNow? <==> e.ms < MinuteMs)
    ensures e.Millis? && MinuteMs <= e.ms < HourMs ==>
      a.Minutes? && 1 <= a.n < 60 && a.n * MinuteMs <= e.ms < (a.n + 1) * MinuteMs
    ensures e.Millis? && HourMs <= e.ms < DayMs ==>
      a.Hours? && 1 <= a.n < 24 && a.n * HourMs <= e.ms < (a.n + 1) * HourMs
    ensures e.Millis? && DayMs <= e.ms ==>
      a.Days? && 1 <= a.n && a.n * DayMs <= e.ms < (a.n + 1) * DayMs
  {
    match e
    case Invalid => NaNDays
    case Millis(ms) =>
      var minutes := ms / MinuteMs;
      var hours := minutes / 60;
      var days := hours / 24;
      if minutes < 1 then JustNow
      else if minutes < 60 then Minutes(minutes)
      else if hours < 24 then Hours(hours)
      else Days(days)
  }

  /** "N unit ago", with an "s" after the unit when N is more than one. */
  function Phrase(n: nat, unit: string): string {
    NatToString(n) + " " + unit + (if n > 1 then "s" else "") + " ago"
  }

  function FormatTimeAgo(e: Elapsed): (s: string)
    ensures e.Millis? && e.ms < MinuteMs ==> s == "Just now"
    ensures e.Invalid? ==> s == "NaN day ago"
  {
    match Bucket(e)
    case JustNow => "Just now"
    case Minutes(n) => Phrase(n, "minute")
    case Hours(n) => Phrase(n, "hour")
    case Days(n) => Phrase(n, "day")
    case NaNDays => "NaN day ago"
  }

  predicate EndsWith(s: string, suffix: string) {
    |s| >= |suffix| && s[|s| - |suffix|..] == suffix
  }

  /** The unit takes its plural "s" exactly when the count is above one. */
  lemma PluralExactlyAboveOne(e: Elapsed)
    requires Bucket(e).Counted()
    ensures EndsWith(FormatTimeAgo(e), "s ago") <==> Bucket(e).n > 1
  {
    var a := Bucket(e);
    var unit := if a.Minutes? then "minute" else if a.Hours? then "hour" else "day";
    var s := FormatTimeAgo(e);
    var head := NatToString(a.n) + " " + unit;
    if a.n > 1 {
      assert s == head + "s ago";
      assert s[|s| - 5..] == "s ago";
    } else {
      assert s == head + " ago";
      assert s[|s| - 5] == head[|head| - 1];
    }
  }

  /** The number at the front of the phrase reads back, through parseInt, as
      the count of the bucket. */
  lemma CountReadsBack(e: Elapsed)
    requires Bucket(e).Counted()
    ensures ParseInt(FormatTimeAgo(e)) == Some(Bucket(e).n)
  {
    var a := Bucket(e);
    var unit := if a.Minutes? then "minute" else if a.Hours? then "hour" else "day";
    var rest := " " + unit + (if a.n > 1 then "s" else "") + " ago";
    assert FormatTimeAgo(e) == NatToString(a.n) + rest;
    ParseIntOfNatToString(a.n, rest);
  }

  /** The unit a span of ms milliseconds (at least a minute) is told in:
      minutes below an hour, hours below a day, days from there on. */
  function UnitFor(ms: int): string {
    if ms < HourMs then "minute" else if ms < DayMs then "hour" else "day"
  }

  /** Past the first minute the phrase is the bucket's count, then the unit
      the length of the span calls for, plural above one, then "ago". */
  lemma UnitFollowsSpan(e: Elapsed)
    requires e.Millis? && e.ms >= MinuteMs
    ensures Bucket(e).Counted()
    ensures var n := Bucket(e).n;
            FormatTimeAgo(e) == NatToString(n) + " " + UnitFor(e.ms) + (if n > 1 then "s" else "") + " ago"
  {
  }
}
